=== FILE: README.md ===
# Neura.ai voice assistant — a Dafny model of its decision logic

Neura.ai is a browser voice assistant. The page listens through the browser's
speech recogniser. When a transcript names the assistant, the page sends it
to the backend. The backend asks a language model to classify it. The prompt
offers twelve intent types; the backend knows thirteen, because `youtube-open`
is never offered. It normalises the answer, and replies with a type, the
user's words and a sentence to speak. The page speaks that sentence and may
open a web page chosen by the type.

This project models four pieces of that logic as pure Dafny functions and
proves properties of them:

- **The voice loop of `Home.tsx`** (module `Orchestrator`). It is a state
  machine: `Step(state, event)` returns the new state and the effects the page
  asks of the browser. The page's state is its three refs, the two texts it
  shows and the work still pending. Events are recogniser callbacks, utterance
  ends, timer firings, classifier replies and unmount. Effects are start/stop
  of the recogniser, speech and its cancellation, a classifier call, and
  `window.open`. `Run` folds `Step` over a sequence of events. The wake-word
  test and the `type → URL` table of `handleCommand` are in `Orchestrator` and
  `Commands`.
- **`askToAssistant` and `updateAssistant`** (module `Controller`). Each is a
  total function from the request, the database's answer, the classifier's
  answer and the four pre-formatted date strings to the reply.
- **`cleanJsonResponse` and `geminiResponse`** (module `Fences`). The two
  global regex replacements are modelled as left-to-right scans. `trim` uses
  the JavaScript whitespace set (module `JsText`).
- **The route table of `App.tsx`** (module `Routing`), including following
  redirects.

Supporting modules:

- `Wrappers` holds `Option`.
- `JsText` models the JavaScript string operations used: `trim`, ASCII
  `toLowerCase`, `includes` and truthiness.
- `Intents` holds the thirteen intent types and their wire names, the reply
  record, and `Deliver`. `Deliver` is the axios boundary: a non-2xx status
  reaches the page as no data.

The environment is passed in rather than modelled:

- The database, the image host and the language model are parameters
  (`UserLookup`, `Upload`, `DbWrite`, `Option<Classified>`).
- `JSON.parse` is a function parameter.
- The clock is the pre-formatted strings of `Clock`.
- Speech and timers are events.
- Wall-clock delays become an order on timer events: any pending timer may
  fire next. This allows more orders than real time does, so every "never"
  proved here holds for the real page too, within one mount (see "Re-running
  the effect" under "## Left out"). Each "can happen" trace below uses
  an order real delays allow.

Two facts about the code shape the model:

- No failing path speaks an apology. Every failing controller reply is
  non-2xx and reaches the page as `undefined`, and `Home.tsx:216` then does
  nothing. The `catch` at `Home.tsx:228-233` only sets the apology text. See
  `Orchestrator.NoDataNoReaction`, `Orchestrator.UnreadableResultIsSilent`
  and `Orchestrator.TurnSpeaksIffControllerSucceeded`.
- The delayed restarts scheduled by `onend` and `onerror` check only that the
  page is still mounted. So recognition while speaking is reachable
  (`Orchestrator.SpeakingWhileRecognizingIsReachable`). It is not ruled out by
  an invariant.

## Model

| member | source | states |
|---|---|---|
| JsText.Trim | Backend/src/gemini.ts:8 | the result is a slice of the input with no whitespace (the JavaScript WhiteSpace and LineTerminator set) at either end, and everything cut off on either side is whitespace |
| JsText.ContainsIff | Frontend/src/pages/Home.tsx:204 | `includes` holds exactly when the needle occurs at some index of the text |
| Intents.Parse | Backend/src/Controllers/user.controllers.ts:79-92 | a string names an intent type only if it is that type's wire name |
| Intents.Deliver | Frontend/src/Context/UserContext.tsx:64-70 | the page gets data exactly for a 2xx reply, and that data is the reply's body; other statuses and failed requests become no data |
| Fences.CleanJsonResponse | Backend/src/gemini.ts:4-9 | the cleaned text contains no three backticks in a row and has no whitespace at either end |
| Fences.StripFencesLeavesNoFence | Backend/src/gemini.ts:7 | after removing every run of three backticks left to right, no such run is left, even where removals join backticks |
| Fences.CleanOnlyDeletes | Backend/src/gemini.ts:4-9 | every character of the cleaned text comes from the input: the cleaned text's multiset of characters is contained in the input's |
| Fences.CleanIdempotent | Backend/src/gemini.ts:4-9 | cleaning a cleaned text changes nothing |
| Fences.CleanWithoutBackticks | Backend/src/gemini.ts:4-9 | text with no backtick comes back merely trimmed |
| Fences.StripJsonMarkersOverPlainText | Backend/src/gemini.ts:6 | the ```json scan leaves backtick-free text untouched and carries on after it |
| Fences.OpeningMarkerRemoved | Backend/src/gemini.ts:6 | an opening ```json marker, with "json" in any letter case, goes together with all the whitespace after it, the body's own leading whitespace included |
| Fences.CleanUnwrapsFenced | Backend/src/gemini.ts:4-9 | a JSON body wrapped in a ```json … ``` block (any case of "json"), with no backtick of its own, comes back as the body, trimmed |
| Fences.CleanUnwrapsBlank | Backend/src/gemini.ts:4-9 | a fenced block with a blank body cleans to the empty string |
| Fences.UpperCaseOpenerRemoved | Backend/src/gemini.ts:6 | the `i` flag at work: a block opened by ```JSON unwraps like one opened by ```json |
| Fences.GeminiResponse | Backend/src/gemini.ts:22-81 | a failed request or a missing candidate text gives `undefined`; an answer without backticks reaches `JSON.parse` merely trimmed |
| Fences.GeminiResponseUnwrapsFence | Backend/src/gemini.ts:69-77 | for every parser, a fenced answer with a backtick-free body is parsed as its bare, trimmed body |
| Controller.ClientFailureIs500 | Backend/src/Controllers/user.controllers.ts:142-163 | whatever the answer text and parser, a client result of `undefined` becomes the 500 "couldn't process" reply, and a parsed object missing `type` or `response` the 500 "invalid response" reply, both `general` and echoing the command |
| Controller.UnvalidatedAnswerIs500 | Backend/src/Controllers/user.controllers.ts:156-163 | the client passes an object lacking `type` or `response` on unchanged (gemini.ts:75-77 checks nothing), and the controller turns it into the 500 "invalid response" reply |
| Controller.Ask | Backend/src/Controllers/user.controllers.ts:101-220 | every reply's type is one of the thirteen; every non-200 reply is `general`; every 200 reply has a non-empty response; the classifier is consulted exactly when identity, user and command all pass; history is stored exactly when consulted and the save succeeded, and what is stored is the command; under the own-key reading of user.controllers.ts:173 (see ## Findings) |
| Controller.Normalise | Backend/src/Controllers/user.controllers.ts:142-209 | after validation the status is 200 or 500; a 500 is `general`; a 200 has something to say; the type is always one of the thirteen; under the own-key reading of user.controllers.ts:173 (see ## Findings) |
| Controller.ValidationOrder | Backend/src/Controllers/user.controllers.ts:104-130 | missing identity gives 401, then an unknown user 404, then a bad command 400, each as a fixed `general` reply that neither consults the classifier nor stores history |
| Controller.SaveFailureIsSwallowed | Backend/src/Controllers/user.controllers.ts:133-139 | a failed history save leaves the reply unchanged and stores nothing |
| Controller.ClassifierFailureIs500 | Backend/src/Controllers/user.controllers.ts:145-163 | no classifier result, or one missing `type` or `response`, gives a 500 `general` reply echoing the command |
| Controller.DateTimeResponseIsLocal | Backend/src/Controllers/user.controllers.ts:166-179 | for the four date and time types the classifier's response is replaced by the locally formatted sentence for that type |
| Controller.SuccessUserInput | Backend/src/Controllers/user.controllers.ts:174-208 | every 200 reply carries the classifier's `userInput`, or the command when that is empty |
| Controller.UnknownTypeBecomesGeneral | Backend/src/Controllers/user.controllers.ts:203-209 | a type outside the thirteen is rewritten to `general` and keeps the classifier's response |
| Controller.NotSureIsUnreachable | Backend/src/Controllers/user.controllers.ts:156 | no reply ever carries the "I'm not sure how to help with that." default |
| Controller.KnownTypePassesThrough | Backend/src/Controllers/user.controllers.ts:182-201 | the nine types of the valid list (`general` and eight action types) are returned with the classifier's own response |
| Controller.BrowserSeesOnlySuccess | Frontend/src/Context/UserContext.tsx:64-70 | the page receives data exactly when the controller answered 200, and such data names an intent type and has something to say, under the own-key reading of user.controllers.ts:173 (see ## Findings) |
| Controller.AskAsWritten | Backend/src/Controllers/user.controllers.ts:173-179 | with `in` as written, a classifier type naming an inherited `Object.prototype` member gets a 200 reply with that type and a response that is not text |
| Controller.AsWrittenAgreesOffPrototype | Backend/src/Controllers/user.controllers.ts:173 | for every other type, the code as written and the own-key reading give the same reply |
| Controller.InheritedNameEscapesEnumeration | Backend/src/Controllers/user.controllers.ts:173-177 | the type "constructor" escapes the thirteen as written; the own-key reading turns it into a `general` reply |
| Controller.UpdateAssistant | Backend/src/Controllers/user.controllers.ts:36-76 | 401 comes before any upload; the image host is called exactly when a file came; an uploaded file's URL wins over `imageUrl`; nothing is written without an image; the name is written exactly when it is non-empty; a 200 means the update was sent |
| Controller.NoImageIs400 | Backend/src/Controllers/user.controllers.ts:53-55 | without a file or `imageUrl`, or with an upload that gave no URL, the reply is 400 and nothing is written |
| Controller.FileShadowsImageUrl | Backend/src/Controllers/user.controllers.ts:47-51 | when a file came, `imageUrl` has no influence on the outcome |
| Commands.OpenedUrls | Frontend/src/pages/Home.tsx:95-122 | the chain of `if`s opens at most one page |
| Commands.DispatchFollowsTable | Frontend/src/pages/Home.tsx:99-121 | the `if` chain equals the per-type navigation table: a known type opens its entry; an unknown string opens nothing |
| Commands.OpensNothingForAnswers | Frontend/src/pages/Home.tsx:99-121 | nothing is opened exactly for `general`, the four date and time types and unknown types; the user's words reach a URL exactly for the three search types |
| Routing.HomeNeedsImageAndName | Frontend/src/App.tsx:20 | `/` renders Home exactly when the user has a non-empty image and name, and otherwise redirects to `/customize` |
| Routing.AuthPagesOnlyWhenSignedOut | Frontend/src/App.tsx:21-22 | `/signup` and `/signin` render exactly when nobody is signed in, and otherwise redirect to `/` |
| Routing.CustomizeOnlyWhenSignedIn | Frontend/src/App.tsx:23-24 | `/customize` and `/customize2` render exactly when someone is signed in, and otherwise redirect to `/signup` |
| Routing.RedirectsSettle | Frontend/src/App.tsx:20-24 | from any path, for any user, following redirects reaches a rendered page within two redirects without visiting a path twice |
| Routing.FreshUserIsSentToCustomize | Backend/src/Models/user.model.ts:20-27 | a user with the schema's default image and name is sent from `/` to `/customize` |
| Orchestrator.Mount | Frontend/src/pages/Home.tsx:124-249 | after mounting, the page is mounted with empty texts, nothing pending and neither speaking nor recognising; the first start is only scheduled, behind its timer, and only with recogniser support; the one effect is the greeting, spoken exactly when supported and the user has a name |
| Orchestrator.StartRecognition | Frontend/src/pages/Home.tsx:49-62 | a start is requested exactly when mounted, with a recogniser, not speaking and not recognising; the state never changes |
| Orchestrator.SpeakText | Frontend/src/pages/Home.tsx:64-93 | nothing happens for empty text or after unmount; otherwise speaking is set and speech in progress is cancelled before the text is spoken |
| Orchestrator.OnEnded | Frontend/src/pages/Home.tsx:162-179 | `onend` leaves the recogniser idle and schedules a restart exactly when mounted and not speaking, and changes nothing else |
| Orchestrator.OnError | Frontend/src/pages/Home.tsx:181-199 | `onerror` leaves the recogniser idle and schedules a restart exactly when mounted, not speaking and the error is not "aborted", and changes nothing else |
| Orchestrator.StepKeepsValid | Frontend/src/pages/Home.tsx:124-264 | every step keeps the page's invariant: without a recogniser nothing is pending; after unmount no first-start timer remains; while mounted and speaking some utterance has yet to end |
| Orchestrator.RunKeepsValid | Frontend/src/pages/Home.tsx:124-264 | the invariant holds after any sequence of events |
| Orchestrator.UnmountIsFinal | Frontend/src/pages/Home.tsx:251-252 | no event sets the page mounted again |
| Orchestrator.StartOnlyWhileMounted | Frontend/src/pages/Home.tsx:142-196 | a recogniser start is requested only while mounted |
| Orchestrator.StartWhileSpeakingOnlyFromRestart | Frontend/src/pages/Home.tsx:167-196 | while speaking, the only event that can request a start is a pending `onend` or `onerror` restart firing |
| Orchestrator.SpeechOnlyWhileMounted | Frontend/src/pages/Home.tsx:64-65 | speech is only ever started while mounted |
| Orchestrator.NoWakeWordNoTurn | Frontend/src/pages/Home.tsx:203-204 | a transcript without the assistant's name changes nothing and calls nobody |
| Orchestrator.EmptyNameNeverWakes | Frontend/src/pages/Home.tsx:204 | an empty assistant name never matches |
| Orchestrator.WakeMatchIgnoresCase | Frontend/src/pages/Home.tsx:204 | the wake-word test gives the same answer on lower-cased name and transcript |
| Orchestrator.WakeWordStartsTurn | Frontend/src/pages/Home.tsx:205-215 | a matching transcript stops the recogniser, then makes exactly one classifier call with the trimmed transcript; it shows that transcript and clears the reply text while mounted, adds one pending reply, and changes nothing else |
| Orchestrator.UnreadableResultIsSilent | Frontend/src/pages/Home.tsx:228-233 | an unreadable result shows the apology text and causes no effect, speech included |
| Orchestrator.NoDataNoReaction | Frontend/src/pages/Home.tsx:215-216 | a reply without data, or one arriving after unmount, only resolves the pending call |
| Orchestrator.ReplyIsShownSpokenAndDispatched | Frontend/src/pages/Home.tsx:216-225 | a reply reaching the mounted page is shown and one pending reply is settled; a reply with text cancels and speaks it, adds one utterance, and then opens the pages its type leads to, with no other effect; an empty reply speaks nothing, leaves the speaking state and utterances alone, and only opens those pages; a text clear is scheduled, and nothing else changes |
| Orchestrator.SpeechEndSchedulesResume | Frontend/src/pages/Home.tsx:76-90 | when a spoken reply ends while mounted, speaking is cleared, one utterance is settled, both the text clear and the resumed start are scheduled, and nothing else changes |
| Orchestrator.TornDownCallbacksAreInert | Frontend/src/pages/Home.tsx:76-224 | after unmount, timers, replies and utterance ends request nothing and change only their own bookkeeping, which never grows: no timer is scheduled and no pending call or utterance is added |
| Orchestrator.TornDownNoNewTimers | Frontend/src/pages/Home.tsx:76-224 | after unmount, no event schedules a timer: the pending timers only shrink, counted with multiplicity |
| Orchestrator.CleanupEffects | Frontend/src/pages/Home.tsx:251-264 | the cleanup unmounts, removes every first-start timer and keeps every other timer as often as it was pending, stops the recogniser, cancels speech and changes nothing else |
| Orchestrator.WithoutStartDelayCounts | Frontend/src/pages/Home.tsx:251-253 | clearing the first-start timer removes every pending copy of it and keeps every other pending timer with its multiplicity |
| Orchestrator.TornDownStaysQuiet | Frontend/src/pages/Home.tsx:251-264 | after unmount, on any sequence of events, the page stays unmounted, its texts and speaking flag are frozen, its pending timers never grow, and it never starts recognition, speaks or opens a page |
| Orchestrator.RunSplit | Frontend/src/pages/Home.tsx:124-264 | running two event sequences in turn equals running their concatenation, with effects in order |
| Orchestrator.GreetingOverlapsListening | Frontend/src/pages/Home.tsx:237-249 | the greeting does not mark the page as speaking, so the first start fires while the greeting is still pending |
| Orchestrator.WakeTurnOpens | Frontend/src/pages/Home.tsx:162-215 | the opening of a turn: the recogniser's end after `stop()` schedules a restart because nothing is being spoken yet |
| Orchestrator.ReplyThenRestartOverlap | Frontend/src/pages/Home.tsx:167-176 | a reply spoken before that restart fires leaves the page recognising while speaking |
| Orchestrator.RestartFiresWhileSpeaking | Frontend/src/pages/Home.tsx:167-177 | a pending restart fires on a mounted page that is speaking and the recogniser starts anyway, since the timer re-checks only the mounted flag |
| Orchestrator.SpeakingWhileRecognizingIsReachable | Frontend/src/pages/Home.tsx:142-219 | an order of events exists, from mounting on, after which the page is mounted, speaking and recognising at once |
| Orchestrator.ClassifyAfterUnmount | Frontend/src/pages/Home.tsx:201-215 | the cleanup leaves `onresult` attached, so a late matching result still stops the recogniser and calls the classifier |
| Orchestrator.TurnSpeaksIffControllerSucceeded | Frontend/src/pages/Home.tsx:215-219 | together with the controller: a turn ends in speech exactly when `askToAssistant` answered 200, and any other answer changes nothing but the pending count, under the own-key reading of user.controllers.ts:173 (see ## Findings) |

## Left out

- Speech APIs: the recogniser and synthesiser are events and effects. Voice
  selection and the language settings (`Home.tsx:67-73`, `Home.tsx:134-136`)
  are not modelled. An `InvalidStateError` from `start()` is swallowed, so it
  is just the `StartRecognizer` effect. `stop()` is taken not to throw: only
  the cleanup's call (`Home.tsx:255-259`) is guarded by a `try`, while the call
  after a wake word (`Home.tsx:209`) is not. Both calls are the
  `StopRecognizer` effect.
- Timer delays (800, 1000 and 2000 ms): timers fire in any order. The proved
  "never" properties therefore cover every real order. Real time is not
  modelled.
- `listening` state, the hamburger menu, logout, navigation from Home and all
  JSX rendering: these are display, with no effect on the voice loop.
- The guard at `Home.tsx:30-33` (no context or no user data: navigate to
  `/signin`): the model starts from a mounted page with user data.
- Re-running the effect when `assistantName`, `name` or `getGeminiResponse`
  changes (`Home.tsx:265`): the model covers one mount and its cleanup. On
  a re-run, `Home.tsx:139` sets the shared `isMountedRef` back to true while
  the old recogniser's `onend`/`onerror` handlers and its pending restart
  timers are still live, so they see "mounted" again. Across such a re-run
  `Orchestrator.UnmountIsFinal` and `Orchestrator.TornDownStaysQuiet` do not
  hold for the real page.
- The recogniser's result list: only the last result's transcript is
  modelled. "No result to read" stands for every exception in the `try` of
  `onresult` (`getGeminiResponse` itself never throws).
- `JsText.Lower`: `toLowerCase` is modelled on ASCII letters only. Other
  letters are left as they are.
- `encodeURIComponent` is left uninterpreted, so its
  `URIError` on a lone surrogate is not modelled.
- The language model, its prompt, axios, mongoose, Cloudinary and
  `JSON.parse` are oracle parameters. Non-string JSON values for `type`,
  `userInput` or `response` are not modelled: a missing field is the empty
  string, and both are falsy and treated alike by the code.
- `moment` formatting: the four date and time strings are inputs (`Clock`).
- `Controller.Ask`: a `command` that is not a string is `None`. When the user
  lookup throws, the 500 reply's `userInput` is the command if it is a
  string, else empty. A non-string truthy command echoed there is not
  modelled.
- `Controller.BrowserSeesOnlySuccess`: proved for `Controller.Ask`, which
  reads user.controllers.ts:173 as an own-key lookup. As written
  (`Controller.AskAsWritten`), a classifier type such as "constructor" gives a
  200 reply whose type is none of the thirteen and whose response is not a
  sentence, so the page receives data with nothing it can say.
- `Orchestrator.TurnSpeaksIffControllerSucceeded`: proved for the own-key
  reading too. As written, the "constructor" reply is a 200 whose response
  the page cannot speak. `speak(undefined)` then says nothing, although the
  controller succeeded. The page's half of this, a reply with an empty
  response speaking nothing, is proved in
  `Orchestrator.ReplyIsShownSpokenAndDispatched`.
- `getCurrentUser`, the auth controllers, `isAuth`, token generation, multer
  and the Express and React wiring: these are thin wrappers over libraries,
  with no decision logic of the modelled kind.
- Unknown paths in `App.tsx`: the router renders nothing for them, and they
  are not part of `Routing.Path`.

## Findings

| source | as written | input that shows it | evidently intended | confidence | as-written member | corrected member |
|---|---|---|---|---|---|---|
| Backend/src/Controllers/user.controllers.ts:173 | `type in dateTimeMap` also holds for names every object inherits from `Object.prototype`. The reply then carries that type and `dateTimeMap[type]`, which is a function or an object, not a sentence | a classifier answer `{"type": "constructor", "userInput": "", "response": "Okay"}` for the command "open it" gives a 200 reply with type "constructor", which is none of the thirteen, and no speakable response | only the four date and time keys select a local sentence; any other unknown type becomes `general` with the classifier's response | medium, not executed | Controller.AskAsWritten (shown by Controller.InheritedNameEscapesEnumeration) | Controller.Ask |

=== FILE: commands.dfy ===
/**
 * `handleCommand` of `Home.tsx`: which web page a classified command opens.
 */
module Commands {
  import opened Wrappers
  import opened Intents

  /** A URL to open in a new tab: a fixed `prefix`, followed by
      `encodeURIComponent(arg)` when there is an `arg`. The encoding itself is
      left uninterpreted. */
  datatype Url = Url(prefix: string, arg: Option<string>)

  const GoogleSearchUrl: string := "https://www.google.com/search?q="
  const YoutubeSearchUrl: string := "https://www.youtube.com/results?search_query="
  const CalculatorUrl: string := "https://www.google.com/search?q=calculator"
  const InstagramUrl: string := "https://www.instagram.com/"
  const FacebookUrl: string := "https://www.facebook.com/"
  const WeatherUrl: string := "https://www.google.com/search?q=weather"
  const YoutubeUrl: string := "https://www.youtube.com/"

  /** The `window.open` calls of `handleCommand`, in the order of its chain of
      independent `if` statements. Each test compares `type` with one string,
      so at most one of them opens anything. */
  function OpenedUrls(kind: string, userInput: string): (urls: seq<Url>)
    ensures |urls| <= 1
  {
    (if kind == "google-search" then [Url(GoogleSearchUrl, Some(userInput))] else [])
    + (if kind == "calculator-open" then [Url(CalculatorUrl, None)] else [])
    + (if kind == "instagram-open" then [Url(InstagramUrl, None)] else [])
    + (if kind == "facebook-open" then [Url(FacebookUrl, None)] else [])
    + (if kind == "weather-show" then [Url(WeatherUrl, None)] else [])
    + (if kind == "youtube-open" then [Url(YoutubeUrl, None)] else [])
    + (if kind == "youtube-search" || kind == "youtube-play"
       then [Url(YoutubeSearchUrl, Some(userInput))] else [])
  }

  /** Where an intent leads: a fixed page, a page queried with the user's
      words, or nowhere. */
  datatype Destination = Fixed(url: string) | Query(prefix: string)

  /** The navigation table, one entry per intent type. */
  function DestinationOf(t: IntentType): Option<Destination> {
    match t
    case GoogleSearch => Some(Query(GoogleSearchUrl))
    case YoutubeSearch => Some(Query(YoutubeSearchUrl))
    case YoutubePlay => Some(Query(YoutubeSearchUrl))
    case YoutubeOpen => Some(Fixed(YoutubeUrl))
    case CalculatorOpen => Some(Fixed(CalculatorUrl))
    case InstagramOpen => Some(Fixed(InstagramUrl))
    case FacebookOpen => Some(Fixed(FacebookUrl))
    case WeatherShow => Some(Fixed(WeatherUrl))
    case General => None
    case GetTime => None
    case GetDate => None
    case GetDay => None
    case GetMonth => None
  }

  function Realise(d: Destination, userInput: string): Url {
    match d
    case Fixed(url) => Url(url, None)
    case Query(prefix) => Url(prefix, Some(userInput))
  }

  /** The `if` chain follows the navigation table: a known type opens its
      table entry, and a string that names no type opens nothing. */
  lemma DispatchFollowsTable(kind: string, userInput: string)
    ensures OpenedUrls(kind, userInput)
         == match Parse(kind)
            case None => []
            case Some(t) =>
              match DestinationOf(t)
              case None => []
              case Some(d) => [Realise(d, userInput)]
  {
  }

  /** General, time-relative and unknown types open nothing; the user's words
      reach a URL only for the three search types. */
  lemma OpensNothingForAnswers(kind: string, userInput: string)
    ensures OpenedUrls(kind, userInput) == []
        <==> Parse(kind).None? || DestinationOf(Parse(kind).value).None?
    ensures (exists k :: 0 <= k < |OpenedUrls(kind, userInput)| && OpenedUrls(kind, userInput)[k].arg.Some?)
        <==> kind in {"google-search", "youtube-search", "youtube-play"}
  {
    DispatchFollowsTable(kind, userInput);
    if kind in {"google-search", "youtube-search", "youtube-play"} {
      assert OpenedUrls(kind, userInput)[0].arg.Some?;
    }
  }
}

=== FILE: controller.dfy ===
/**
 * The two decision chains of `user.controllers.ts`: `askToAssistant`, which
 * validates a spoken command, records it, asks the classifier and normalises
 * its answer, and `updateAssistant`, which picks the assistant image and the
 * fields to write. The database, the classifier, the image host and the clock
 * are inputs: what they answered, not how.
 */
module Controller {
  import opened Wrappers
  import opened JsText
  import opened Intents
  import Fences

  /** What `User.findById` produced. */
  datatype UserLookup = LookupFailed | NoUser | FoundUser

  /** The four `moment()` renderings: "MMMM Do, YYYY", "h:mm A", "dddd", "MMMM". */
  datatype Clock = Clock(date: string, time: string, day: string, month: string)

  /** The reply, whether the classifier was called, and the command stored in
      the user's history (`None` when nothing was stored). */
  datatype AskOutcome = AskOutcome(reply: Reply, consulted: bool, stored: Option<string>)

  const Unauthorized: string := "Unauthorized access"
  const UserNotFound: string := "User not found"
  const InvalidCommand: string := "Please provide a valid command"
  const NoResult: string := "Sorry, I couldn't process your request. Please try again."
  const Malformed: string := "I received an invalid response. Please try again."
  const NotSure: string := "I'm not sure how to help with that."
  const Crashed: string := "An error occurred while processing your request. Please try again."

  /** The command passes validation: a string that is not empty once trimmed.
      `None` is a body without a string `command`. */
  predicate ValidCommand(command: Option<string>) {
    command.Some? && Trim(command.value) != ""
  }

  /** The locally computed answer to a time-relative intent. */
  function DateTimeSentence(t: IntentType, clock: Clock): string
    requires IsDateTime(t)
  {
    match t
    case GetDate => "Current date is " + clock.date
    case GetTime => "Current time is " + clock.time
    case GetDay => "Today is " + clock.day
    case GetMonth => "Current month is " + clock.month
  }

  /** The own keys of `dateTimeMap`. */
  predicate IsDateTimeKey(kind: string) {
    Parse(kind).Some? && IsDateTime(Parse(kind).value)
  }

  /** The array `validTypes`: every type except the four time-relative ones. */
  const ValidTypes: seq<IntentType> :=
    [General, GoogleSearch, YoutubeSearch, YoutubePlay, CalculatorOpen,
     InstagramOpen, FacebookOpen, WeatherShow, YoutubeOpen]

  predicate IsValidType(kind: string) {
    Parse(kind).Some? && Parse(kind).value in ValidTypes
  }

  function GeneralReply(status: int, userInput: string, response: string): Reply {
    Reply(status, Body("general", userInput, response))
  }

  /** `askToAssistant`, with the date-time lookup read as own-key membership.
      Every reply names one of the thirteen intent types; every failure is
      a `general` reply; a success always carries something to say. */
  function Ask(hasUserId: bool, lookup: UserLookup, command: Option<string>, saveOk: bool,
               classified: Option<Classified>, clock: Clock): (r: AskOutcome)
    ensures IsIntentName(r.reply.body.kind)
    ensures r.reply.status != 200 ==> r.reply.body.kind == "general"
    ensures r.reply.status == 200 ==> r.reply.body.response != ""
    ensures r.consulted <==> hasUserId && lookup.FoundUser? && ValidCommand(command)
    ensures r.stored.Some? <==> r.consulted && saveOk
    ensures r.stored.Some? ==> r.stored == command
  {
    if !hasUserId then
      AskOutcome(GeneralReply(401, "", Unauthorized), false, None)
    else if lookup.LookupFailed? then
      AskOutcome(GeneralReply(500, command.GetOr(""), Crashed), false, None)
    else if lookup.NoUser? then
      AskOutcome(GeneralReply(404, "", UserNotFound), false, None)
    else if !ValidCommand(command) then
      AskOutcome(GeneralReply(400, "", InvalidCommand), false, None)
    else
      var cmd := command.value;
      var stored := if saveOk then Some(cmd) else None;
      AskOutcome(Normalise(cmd, classified, clock), true, stored)
  }

  /** The part of `askToAssistant` after the command was recorded: turning
      the classifier's answer into a reply. */
  function Normalise(cmd: string, classified: Option<Classified>, clock: Clock): (reply: Reply)
    ensures IsIntentName(reply.body.kind)
    ensures reply.status == 200 || reply.status == 500
    ensures reply.status == 500 ==> reply.body.kind == "general"
    ensures reply.status == 200 ==> reply.body.response != ""
  {
    match classified
    case None => GeneralReply(500, cmd, NoResult)
    case Some(c) =>
      if !Truthy(c.kind) || !Truthy(c.response) then
        GeneralReply(500, cmd, Malformed)
      else if IsDateTimeKey(c.kind) then
        Reply(200, Body(c.kind, Or(c.userInput, cmd), DateTimeSentence(Parse(c.kind).value, clock)))
      else if IsValidType(c.kind) then
        Reply(200, Body(c.kind, Or(c.userInput, cmd), c.response))
      else
        Reply(200, Body("general", Or(c.userInput, cmd), Or(c.response, NotSure)))
  }

  /** The checks run in order — identity, user, command — and a request that
      fails one gets its `general` error without touching history or the
      classifier. */
  lemma ValidationOrder(hasUserId: bool, lookup: UserLookup, command: Option<string>, saveOk: bool,
                        classified: Option<Classified>, clock: Clock)
    ensures var r := Ask(hasUserId, lookup, command, saveOk, classified, clock);
      && (!hasUserId ==> r.reply == GeneralReply(401, "", Unauthorized))
      && (hasUserId && lookup.NoUser? ==> r.reply == GeneralReply(404, "", UserNotFound))
      && ((hasUserId && lookup.FoundUser? && !ValidCommand(command))
            ==> r.reply == GeneralReply(400, "", InvalidCommand))
      && (r.reply.status in {400, 401, 404} ==> !r.consulted && r.stored.None?)
  {
  }

  /** A failed history save changes what is stored and nothing else. */
  lemma SaveFailureIsSwallowed(hasUserId: bool, lookup: UserLookup, command: Option<string>,
                               classified: Option<Classified>, clock: Clock)
    ensures Ask(hasUserId, lookup, command, false, classified, clock).reply
         == Ask(hasUserId, lookup, command, true, classified, clock).reply
    ensures Ask(hasUserId, lookup, command, false, classified, clock).stored.None?
  {
  }

  /** No usable classifier answer is a 500 `general` reply that echoes the
      command. */
  lemma ClassifierFailureIs500(cmd: string, classified: Option<Classified>, clock: Clock)
    requires classified.None? || classified.value.kind == "" || classified.value.response == ""
    ensures var reply := Normalise(cmd, classified, clock);
      reply.status == 500 && reply.body.kind == "general" && reply.body.userInput == cmd
  {
  }

  /** The classifier client leaves validation to this controller: a failed
      request, an unparsable answer, or a parsed answer missing `type` or
      `response` all end in a 500 `general` reply that echoes the command. */
  lemma ClientFailureIs500(cmd: string, answer: Option<string>, parse: string -> Option<Classified>,
                           clock: Clock)
    ensures var parsed := Fences.GeminiResponse(answer, parse);
      var reply := Normalise(cmd, parsed, clock);
      && (parsed.None? ==> reply == GeneralReply(500, cmd, NoResult))
      && ((parsed.Some? && (parsed.value.kind == "" || parsed.value.response == ""))
            ==> reply == GeneralReply(500, cmd, Malformed))
  {
  }

  /** An answer whose cleaned text parses to an object lacking `type` or
      `response` is passed on by the client unchanged and refused here. */
  lemma UnvalidatedAnswerIs500(cmd: string, text: string, parse: string -> Option<Classified>, clock: Clock)
    requires parse(Fences.CleanJsonResponse(text)).Some?
    requires parse(Fences.CleanJsonResponse(text)).value.kind == ""
          || parse(Fences.CleanJsonResponse(text)).value.response == ""
    ensures Fences.GeminiResponse(Some(text), parse) == parse(Fences.CleanJsonResponse(text))
    ensures Normalise(cmd, Fences.GeminiResponse(Some(text), parse), clock) == GeneralReply(500, cmd, Malformed)
  {
  }

  /** For a time-relative type the classifier's own response is thrown away
      and the locally formatted sentence is sent instead. */
  lemma DateTimeResponseIsLocal(cmd: string, kind: string, userInput: string, response: string, clock: Clock)
    requires IsDateTimeKey(kind) && response != ""
    ensures var reply := Normalise(cmd, Some(Classified(kind, userInput, response)), clock);
      && reply.status == 200
      && reply.body.response == DateTimeSentence(Parse(kind).value, clock)
      && reply.body.kind == kind
  {
  }

  /** Every success falls back to the command when the classifier gave no
      `userInput`, and keeps the classifier's one otherwise. */
  lemma SuccessUserInput(cmd: string, classified: Option<Classified>, clock: Clock)
    ensures var reply := Normalise(cmd, classified, clock);
      reply.status == 200 ==> reply.body.userInput == Or(classified.value.userInput, cmd)
  {
  }

  /** An unknown type becomes `general` and keeps the classifier's response;
      the "not sure" default is never sent, because the response was already
      checked to be non-empty. */
  lemma UnknownTypeBecomesGeneral(cmd: string, kind: string, userInput: string, response: string, clock: Clock)
    requires kind != "" && response != "" && !IsIntentName(kind)
    ensures Normalise(cmd, Some(Classified(kind, userInput, response)), clock)
         == Reply(200, Body("general", Or(userInput, cmd), response))
  {
  }

  lemma NotSureIsUnreachable(cmd: string, classified: Option<Classified>, clock: Clock)
    ensures var reply := Normalise(cmd, classified, clock);
      reply.body.response == NotSure ==> classified.Some? && classified.value.response == NotSure
  {
    var reply := Normalise(cmd, classified, clock);
    if classified.Some? && IsDateTimeKey(classified.value.kind) && classified.value.response != "" {
      assert reply.body.response[0] in {'C', 'T'};
    }
  }

  /** A known, non-time type passes through with the classifier's response. */
  lemma KnownTypePassesThrough(cmd: string, t: IntentType, userInput: string, response: string, clock: Clock)
    requires !IsDateTime(t) && response != ""
    ensures Normalise(cmd, Some(Classified(Name(t), userInput, response)), clock)
         == Reply(200, Body(Name(t), Or(userInput, cmd), response))
  {
    ParseName(t);
  }

  /** Seen from the browser, which gets `undefined` for every non-2xx reply,
      a turn has data exactly when the controller succeeded, and that data
      always has something to say. */
  lemma BrowserSeesOnlySuccess(hasUserId: bool, lookup: UserLookup, command: Option<string>, saveOk: bool,
                               classified: Option<Classified>, clock: Clock)
    ensures var r := Ask(hasUserId, lookup, command, saveOk, classified, clock);
      var data := Deliver(Some(r.reply));
      && (data.Some? <==> r.reply.status == 200)
      && (data.Some? ==> data.value.response != "" && IsIntentName(data.value.kind))
  {
  }

  // ---- the lookup as written ----

  /** Names every plain object inherits from `Object.prototype`; JavaScript's
      `in` operator finds them in `dateTimeMap` although it never set them. */
  predicate IsInheritedName(kind: string) {
    kind in {"constructor", "hasOwnProperty", "isPrototypeOf", "propertyIsEnumerable",
             "toString", "toLocaleString", "valueOf", "__proto__",
             "__defineGetter__", "__defineSetter__", "__lookupGetter__", "__lookupSetter__"}
  }

  /** A reply as the code builds it, where `response` may be a value that is
      not a string (`None`): a function, dropped when serialised, or
      `Object.prototype` itself. */
  datatype RawReply = RawReply(status: int, kind: string, userInput: string, response: Option<string>)

  function Raw(reply: Reply): RawReply {
    RawReply(reply.status, reply.body.kind, reply.body.userInput, Some(reply.body.response))
  }

  /** `askToAssistant` as written: `type in dateTimeMap` also holds for the
      inherited names, and then `dateTimeMap[type]` is not a string. */
  function AskAsWritten(hasUserId: bool, lookup: UserLookup, command: Option<string>, saveOk: bool,
                        classified: Option<Classified>, clock: Clock): (r: RawReply)
    ensures (&& classified.Some? && IsInheritedName(classified.value.kind) && classified.value.response != ""
             && hasUserId && lookup.FoundUser? && ValidCommand(command))
            ==> r.status == 200 && r.kind == classified.value.kind && r.response.None?
  {
    var ok := Ask(hasUserId, lookup, command, saveOk, classified, clock);
    if ok.consulted && classified.Some? && classified.value.response != ""
       && IsInheritedName(classified.value.kind)
    then
      RawReply(200, classified.value.kind, Or(classified.value.userInput, command.value), None)
    else
      Raw(ok.reply)
  }

  /** Away from the inherited names the code as written and the own-key
      reading agree. */
  lemma AsWrittenAgreesOffPrototype(hasUserId: bool, lookup: UserLookup, command: Option<string>, saveOk: bool,
                                    classified: Option<Classified>, clock: Clock)
    requires classified.None? || !IsInheritedName(classified.value.kind)
    ensures AskAsWritten(hasUserId, lookup, command, saveOk, classified, clock)
         == Raw(Ask(hasUserId, lookup, command, saveOk, classified, clock).reply)
  {
  }

  /** A classifier answer typed "constructor" gets a 200 reply whose type is
      none of the thirteen and whose response is not text; the own-key
      reading turns it into a `general` reply that speaks the classifier's
      response. */
  lemma InheritedNameEscapesEnumeration(clock: Clock)
    ensures var c := Some(Classified("constructor", "", "Okay"));
      && AskAsWritten(true, FoundUser, Some("open it"), true, c, clock)
           == RawReply(200, "constructor", "open it", None)
      && !IsIntentName("constructor")
      && Ask(true, FoundUser, Some("open it"), true, c, clock).reply
           == Reply(200, Body("general", "open it", "Okay"))
  {
    assert Trim("open it") == "open it" by {
      TrimOfTrimmed("open it");
    }
  }

  // ---- updateAssistant ----

  /** The uploaded file, if the request carried one, and what the image host
      made of it. */
  datatype Upload = NoFile | Uploaded(url: string) | UploadFailed

  /** What `findByIdAndUpdate` produced. */
  datatype DbWrite = Written | NoSuchUser | WriteFailed

  /** The fields written: the name only when one was given. */
  datatype AssistantUpdate = AssistantUpdate(assistantName: Option<string>, assistantImage: string)

  /** The status, whether the image host was called, and the update sent to
      the database (`None`: none was sent). */
  datatype UpdateOutcome = UpdateOutcome(status: int, uploadAttempted: bool, update: Option<AssistantUpdate>)

  /** `updateAssistant`. An uploaded file wins over `imageUrl`; without an
      image nothing is written; an empty name is never written. */
  function UpdateAssistant(hasUserId: bool, file: Upload, imageUrl: string, assistantName: string,
                           db: DbWrite): (r: UpdateOutcome)
    ensures !hasUserId ==> r == UpdateOutcome(401, false, None)
    ensures r.uploadAttempted <==> hasUserId && !file.NoFile?
    ensures r.update.Some? ==> r.update.value.assistantImage != ""
    ensures r.update.Some? && file.Uploaded? ==> r.update.value.assistantImage == file.url
    ensures r.update.Some? && file.NoFile? ==> r.update.value.assistantImage == imageUrl
    ensures r.update.Some? ==> (r.update.value.assistantName.Some? <==> assistantName != "")
    ensures (r.update.Some? && r.update.value.assistantName.Some?)
              ==> r.update.value.assistantName.value == assistantName
    ensures r.status == 200 ==> r.update.Some?
  {
    if !hasUserId then UpdateOutcome(401, false, None)
    else if file.UploadFailed? then UpdateOutcome(500, true, None)
    else
      var image := if file.Uploaded? then file.url else imageUrl;
      if !Truthy(image) then UpdateOutcome(400, file.Uploaded?, None)
      else
        var update := AssistantUpdate(if Truthy(assistantName) then Some(assistantName) else None, image);
        match db
        case Written => UpdateOutcome(200, file.Uploaded?, Some(update))
        case NoSuchUser => UpdateOutcome(404, file.Uploaded?, Some(update))
        case WriteFailed => UpdateOutcome(500, file.Uploaded?, Some(update))
  }

  /** Without any image the request is refused with 400 and nothing is
      written. */
  lemma NoImageIs400(file: Upload, imageUrl: string, assistantName: string, db: DbWrite)
    requires (file.NoFile? && imageUrl == "") || file == Uploaded("")
    ensures UpdateAssistant(true, file, imageUrl, assistantName, db).status == 400
    ensures UpdateAssistant(true, file, imageUrl, assistantName, db).update.None?
  {
  }

  /** With a file the body's `imageUrl` plays no part, even when the upload
      produced no URL. */
  lemma FileShadowsImageUrl(file: Upload, url1: string, url2: string, assistantName: string, db: DbWrite)
    requires !file.NoFile?
    ensures UpdateAssistant(true, file, url1, assistantName, db)
         == UpdateAssistant(true, file, url2, assistantName, db)
  {
  }
}

=== FILE: fences.dfy ===
/**
 * The classifier client of `gemini.ts`: `cleanJsonResponse`, which strips the
 * Markdown code fences a language model may wrap its JSON in, and the
 * "parsed object or undefined" contract of `geminiResponse`.
 */
module Fences {
  import opened Wrappers
  import opened JsText
  import opened Intents

  const Fence: string := "```"

  /** `s` begins with a match of the pattern ```json, letters in any case.
      The regular expression has no `u` flag, so case folding maps only the
      ASCII letters of "json" onto each other. */
  predicate StartsWithJsonMarker(s: string) {
    |s| >= 7 && s[..3] == Fence && Lower(s[3..7]) == "json"
  }

  /** `s.replace(/```json\s*\/gi, "")`: scanning left to right, each match of
      ```json (any case) is removed together with the whitespace run after it,
      and the scan resumes after the removed text. */
  function StripJsonMarkers(s: string): (r: string)
    decreases |s|
  {
    if |s| == 0 then ""
    else if StartsWithJsonMarker(s) then StripJsonMarkers(TrimStart(s[7..]))
    else [s[0]] + StripJsonMarkers(s[1..])
  }

  /** `s.replace(/```/g, "")`: every non-overlapping run of three backticks,
      found left to right, is removed. */
  function StripFences(s: string): (r: string)
    decreases |s|
  {
    if |s| == 0 then ""
    else if StartsWith(s, Fence) then StripFences(s[3..])
    else [s[0]] + StripFences(s[1..])
  }

  /** `cleanJsonResponse(text)`. The result has no fence left in it, no
      whitespace at either end, and holds nothing that was not in the input. */
  function CleanJsonResponse(text: string): (r: string)
    ensures !Contains(r, Fence)
    ensures IsTrimmed(r)
  {
    var unfenced := StripFences(StripJsonMarkers(text));
    StripFencesLeavesNoFence(StripJsonMarkers(text));
    var r := Trim(unfenced);
    var a := SkipWhitespace(unfenced, 0);
    ContainsSlice(unfenced, Fence, a, a + |r|);
    r
  }

  /** The marker removal only deletes characters. */
  lemma {:induction false} StripJsonMarkersDeletes(s: string)
    ensures multiset(StripJsonMarkers(s)) <= multiset(s)
    decreases |s|
  {
    if |s| == 0 {
    } else if StartsWithJsonMarker(s) {
      var rest := TrimStart(s[7..]);
      StripJsonMarkersDeletes(rest);
      assert s == s[..|s| - |rest|] + rest;
    } else {
      StripJsonMarkersDeletes(s[1..]);
      assert s == [s[0]] + s[1..];
    }
  }

  /** The fence removal only deletes characters. */
  lemma {:induction false} StripFencesDeletes(s: string)
    ensures multiset(StripFences(s)) <= multiset(s)
    decreases |s|
  {
    if |s| == 0 {
    } else if StartsWith(s, Fence) {
      StripFencesDeletes(s[3..]);
      assert s == s[..3] + s[3..];
    } else {
      StripFencesDeletes(s[1..]);
      assert s == [s[0]] + s[1..];
    }
  }

  /** Cleaning adds nothing: every character of the result, counted with its
      multiplicity, was in the model's answer. */
  lemma CleanOnlyDeletes(text: string)
    ensures multiset(CleanJsonResponse(text)) <= multiset(text)
  {
    var m := StripJsonMarkers(text);
    var unfenced := StripFences(m);
    StripJsonMarkersDeletes(text);
    StripFencesDeletes(m);
    var r := Trim(unfenced);
    var a := SkipWhitespace(unfenced, 0);
    SliceDeletes(unfenced, a, a + |r|);
    assert multiset(r) <= multiset(unfenced) <= multiset(m) <= multiset(text);
  }

  lemma SliceDeletes(s: string, a: int, b: int)
    requires 0 <= a <= b <= |s|
    ensures multiset(s[a..b]) <= multiset(s)
  {
    assert s == s[..a] + s[a..b] + s[b..];
  }

  /** When the scan is not at a fence, the output starts with the input's first
      character. */
  lemma StripFencesHead(s: string)
    requires |s| > 0 && !StartsWith(s, Fence)
    ensures |StripFences(s)| > 0 && StripFences(s)[0] == s[0]
  {
  }

  /** Putting one character in front of fence-free text makes a fence only
      when that character and the next two are backticks. */
  lemma NoFenceCons(c: char, t: string)
    requires !Contains(t, Fence)
    requires !(c == '`' && |t| >= 2 && t[0] == '`' && t[1] == '`')
    ensures !Contains([c] + t, Fence)
  {
    var r := [c] + t;
    assert r[1..] == t;
    assert |r| < 3 || r[..3][0] != '`' || r[..3][1] != '`' || r[..3][2] != '`';
    assert !StartsWith(r, Fence);
  }

  /** Where the scan is not at a fence, the output cannot open with a fence:
      a removal never joins two backtick runs. */
  lemma StripFencesJoinsNoRuns(s: string)
    requires |s| > 0 && !StartsWith(s, Fence)
    ensures var t := StripFences(s[1..]);
            !(s[0] == '`' && |t| >= 2 && t[0] == '`' && t[1] == '`')
  {
    var u := s[1..];
    if s[0] == '`' && |u| > 0 {
      if u[0] != '`' {
        StripFencesHead(u);
      } else {
        // s opens with two backticks but not three, so u's second
        // character, if any, is not a backtick.
        assert |s| < 3 || s[..3][2] != '`';
        assert |u| < 3 || u[..3][1] != '`';
        assert StripFences(u) == [u[0]] + StripFences(u[1..]);
        if |u| > 1 {
          StripFencesHead(u[1..]);
        }
      }
    }
  }

  /** After the global removal no three backticks are left in a row. */
  lemma {:induction false} StripFencesLeavesNoFence(s: string)
    ensures !Contains(StripFences(s), Fence)
    decreases |s|
  {
    if |s| == 0 {
    } else if StartsWith(s, Fence) {
      StripFencesLeavesNoFence(s[3..]);
    } else {
      StripFencesLeavesNoFence(s[1..]);
      StripFencesJoinsNoRuns(s);
      NoFenceCons(s[0], StripFences(s[1..]));
    }
  }

  /** Text without a fence has no ```json marker to remove. */
  lemma {:induction false} StripJsonMarkersWithoutFence(s: string)
    requires !Contains(s, Fence)
    ensures StripJsonMarkers(s) == s
    decreases |s|
  {
    if |s| > 0 {
      assert !StartsWith(s, Fence);
      StripJsonMarkersWithoutFence(s[1..]);
      assert s == [s[0]] + s[1..];
    }
  }

  /** Text without a fence has nothing for the second replacement to remove. */
  lemma {:induction false} StripFencesWithoutFence(s: string)
    requires !Contains(s, Fence)
    ensures StripFences(s) == s
    decreases |s|
  {
    if |s| > 0 {
      StripFencesWithoutFence(s[1..]);
      assert s == [s[0]] + s[1..];
    }
  }

  /** Cleaning a cleaned response changes nothing. */
  lemma CleanIdempotent(text: string)
    ensures CleanJsonResponse(CleanJsonResponse(text)) == CleanJsonResponse(text)
  {
    var r := CleanJsonResponse(text);
    StripJsonMarkersWithoutFence(r);
    StripFencesWithoutFence(r);
    TrimOfTrimmed(r);
  }

  /** A fence is made of backticks. */
  lemma NoBacktickNoFence(s: string)
    ensures Contains(s, Fence) ==> '`' in s
  {
    ContainsIff(s, Fence);
    if Contains(s, Fence) {
      var i :| OccursAt(s, Fence, i);
      assert s[i] == s[i..i + 3][0] == '`';
    }
  }

  /** A response with no backtick is only trimmed. */
  lemma CleanWithoutBackticks(text: string)
    requires '`' !in text
    ensures CleanJsonResponse(text) == Trim(text)
  {
    NoBacktickNoFence(text);
    StripJsonMarkersWithoutFence(text);
    StripFencesWithoutFence(text);
  }

  /** The marker scan passes over backtick-free text untouched. */
  lemma {:induction false} StripJsonMarkersOverPlainText(x: string, y: string)
    requires '`' !in x
    ensures StripJsonMarkers(x + y) == x + StripJsonMarkers(y)
    decreases |x|
  {
    if |x| > 0 {
      assert (x + y)[0] == x[0] && (x + y)[1..] == x[1..] + y;
      assert !StartsWithJsonMarker(x + y);
      StripJsonMarkersOverPlainText(x[1..], y);
      assert x == [x[0]] + x[1..];
    } else {
      assert x + y == y;
    }
  }

  /** The fence scan passes over backtick-free text untouched. */
  lemma {:induction false} StripFencesOverPlainText(x: string, y: string)
    requires '`' !in x
    ensures StripFences(x + y) == x + StripFences(y)
    decreases |x|
  {
    if |x| > 0 {
      assert (x + y)[0] == x[0] && (x + y)[1..] == x[1..] + y;
      assert !StartsWith(x + y, Fence);
      StripFencesOverPlainText(x[1..], y);
      assert x == [x[0]] + x[1..];
    } else {
      assert x + y == y;
    }
  }

  /** The word after the opening fence, in any ASCII letter case. */
  predicate JsonTag(tag: string) {
    |tag| == 4 && Lower(tag) == "json"
  }

  /** How a language model typically wraps its JSON answer; `tag` is "json"
      written in any case. */
  function Fenced(tag: string, body: string): string {
    Fence + tag + "\n" + body + "\n" + Fence
  }

  /** The closing line of a fenced answer. */
  const Closing: string := "\n" + Fence

  /** The opening marker, whatever the case of its tag, goes in one match
      together with all whitespace after it, the body's own leading
      whitespace included. */
  lemma OpeningMarkerRemoved(tag: string, body: string)
    requires JsonTag(tag)
    ensures StripJsonMarkers(Fenced(tag, body)) == StripJsonMarkers(TrimStart(body + Closing))
  {
    var rest := "\n" + (body + Closing);
    var s := Fence + tag + rest;
    assert Fenced(tag, body) == s;
    assert s[..3] == Fence && s[3..7] == tag && s[7..] == rest;
    assert StartsWithJsonMarker(s);
    TrimStartConcat("\n", body + Closing);
  }

  /** A backtick-free text followed by the closing line loses just the fence. */
  lemma ClosingFenceRemoved(x: string)
    requires '`' !in x
    ensures StripFences(StripJsonMarkers(x + Closing)) == x + "\n"
  {
    assert x + Closing == (x + "\n") + Fence;
    StripJsonMarkersOverPlainText(x + "\n", Fence);
    assert StripJsonMarkers(Fence) == Fence;
    StripFencesOverPlainText(x + "\n", Fence);
    assert StripFences(Fence) == "";
  }

  /** A trailing newline is cut away by `trim`. */
  lemma TrimDropsNewline(body: string)
    requires !AllWhitespace(body)
    ensures Trim(TrimStart(body) + "\n") == Trim(body)
  {
    var a := SkipWhitespace(body, 0);
    var b := BackOverWhitespace(body, a, |body|);
    var u := body[a..] + "\n";
    assert a < |body|;
    assert a < b;
    forall i | b - a <= i < |u|
      ensures IsWhitespace(u[i])
    {
      if i < |u| - 1 {
        assert u[i] == body[a + i];
      }
    }
    assert u[0] == body[a] && u[b - a - 1] == body[b - 1];
    TrimIs(u, 0, b - a);
    assert u[0..b - a] == body[a..b];
  }

  /** A lone fence cleans to nothing. */
  lemma LoneFenceCleansToNothing()
    ensures CleanJsonResponse(Fence) == ""
  {
    assert StripFences(StripJsonMarkers(Fence)) == "";
    SkipWhitespaceIs("", 0, 0);
  }

  /** A fenced answer with a blank body cleans to nothing. */
  lemma CleanUnwrapsBlank(tag: string, body: string)
    requires JsonTag(tag) && AllWhitespace(body)
    ensures CleanJsonResponse(Fenced(tag, body)) == "" == Trim(body)
  {
    OpeningMarkerRemoved(tag, body);
    TrimStartConcat(body, Closing);
    SkipWhitespaceIs(Closing, 0, 1);
    assert TrimStart(Closing) == Fence;
    LoneFenceCleansToNothing();
    SkipWhitespaceIs(body, 0, |body|);
  }

  /** Unwrapping a fenced answer gives back the JSON body, trimmed, whenever the
      body itself holds no backtick. */
  lemma CleanUnwrapsFenced(tag: string, body: string)
    requires JsonTag(tag) && '`' !in body
    ensures CleanJsonResponse(Fenced(tag, body)) == Trim(body)
  {
    if AllWhitespace(body) {
      CleanUnwrapsBlank(tag, body);
    } else {
      OpeningMarkerRemoved(tag, body);
      TrimStartConcat(body, Closing);
      var x := TrimStart(body);
      assert '`' !in x by {
        assert x == body[|body| - |x|..];
      }
      ClosingFenceRemoved(x);
      TrimDropsNewline(body);
    }
  }

  /** What `geminiResponse` resolves to. `reply` is the model's answer text,
      `None` when the request failed or the answer had no candidate text;
      `parse` stands for `JSON.parse`, `None` when it throws. Every failure
      becomes `undefined`; nothing checks the fields of a parsed object.
      An answer without backticks reaches the parser merely trimmed. */
  function GeminiResponse(reply: Option<string>, parse: string -> Option<Classified>): (r: Option<Classified>)
    ensures reply.None? ==> r.None?
    ensures reply.Some? ==> r == parse(CleanJsonResponse(reply.value))
    ensures reply.Some? && '`' !in reply.value ==> r == parse(Trim(reply.value))
  {
    match reply
    case None => None
    case Some(text) =>
      if '`' !in text then CleanWithoutBackticks(text); parse(CleanJsonResponse(text))
      else parse(CleanJsonResponse(text))
  }

  /** A fenced answer reaches `JSON.parse` as its bare body, whatever the
      parser and whatever the case of the `json` tag. */
  lemma GeminiResponseUnwrapsFence(tag: string, body: string, parse: string -> Option<Classified>)
    requires JsonTag(tag) && '`' !in body
    ensures GeminiResponse(Some(Fenced(tag, body)), parse) == parse(Trim(body))
  {
    CleanUnwrapsFenced(tag, body);
  }

  /** The upper-case opener of a fenced answer is removed like the lower-case
      one: the regular expression carries the `i` flag. */
  lemma UpperCaseOpenerRemoved(body: string)
    requires '`' !in body
    ensures CleanJsonResponse(Fenced("JSON", body)) == Trim(body)
  {
    assert Lower("JSON") == "json";
    CleanUnwrapsFenced("JSON", body);
  }
}

=== FILE: intents.dfy ===
/**
 * The closed set of intent types the assistant answers with, and the JSON
 * shapes that carry an intent between the classifier, the backend controller
 * and the browser.
 */
module Intents {
  import opened Wrappers

  /** The thirteen members of `GeminiType`. */
  datatype IntentType =
    | General
    | GoogleSearch
    | YoutubeSearch
    | YoutubePlay
    | YoutubeOpen
    | GetTime
    | GetDate
    | GetDay
    | GetMonth
    | CalculatorOpen
    | InstagramOpen
    | FacebookOpen
    | WeatherShow

  /** The string each intent type travels as in JSON. */
  function Name(t: IntentType): string {
    match t
    case General => "general"
    case GoogleSearch => "google-search"
    case YoutubeSearch => "youtube-search"
    case YoutubePlay => "youtube-play"
    case YoutubeOpen => "youtube-open"
    case GetTime => "get-time"
    case GetDate => "get-date"
    case GetDay => "get-day"
    case GetMonth => "get-month"
    case CalculatorOpen => "calculator-open"
    case InstagramOpen => "instagram-open"
    case FacebookOpen => "facebook-open"
    case WeatherShow => "weather-show"
  }

  /** The intent type a JSON string names, if it names one. */
  function Parse(s: string): (r: Option<IntentType>)
    ensures r.Some? ==> Name(r.value) == s
  {
    if s == "general" then Some(General)
    else if s == "google-search" then Some(GoogleSearch)
    else if s == "youtube-search" then Some(YoutubeSearch)
    else if s == "youtube-play" then Some(YoutubePlay)
    else if s == "youtube-open" then Some(YoutubeOpen)
    else if s == "get-time" then Some(GetTime)
    else if s == "get-date" then Some(GetDate)
    else if s == "get-day" then Some(GetDay)
    else if s == "get-month" then Some(GetMonth)
    else if s == "calculator-open" then Some(CalculatorOpen)
    else if s == "instagram-open" then Some(InstagramOpen)
    else if s == "facebook-open" then Some(FacebookOpen)
    else if s == "weather-show" then Some(WeatherShow)
    else None
  }

  /** Every intent type survives the trip through its JSON string. */
  lemma ParseName(t: IntentType)
    ensures Parse(Name(t)) == Some(t)
  {
  }

  /** A string is one of the thirteen names exactly when it parses. */
  predicate IsIntentName(s: string) {
    Parse(s).Some?
  }

  /** The four time-relative intents, whose answer is computed at reply time. */
  predicate IsDateTime(t: IntentType) {
    t == GetDate || t == GetTime || t == GetDay || t == GetMonth
  }

  /** What the classifier's JSON holds after parsing. A field that is missing and a
      field that is the empty string are both falsy and are treated alike by
      every reader, so a missing field is modelled as "". */
  datatype Classified = Classified(kind: string, userInput: string, response: string)

  /** The JSON body of an assistant reply: `{ type, userInput, response }`. */
  datatype Body = Body(kind: string, userInput: string, response: string)

  /** An HTTP reply of the assistant endpoint. */
  datatype Reply = Reply(status: int, body: Body)

  /** The browser's `getGeminiResponse`: axios rejects every status outside
      200-299 and the rejection is caught, so the caller sees `undefined`. */
  function Deliver(reply: Option<Reply>): (data: Option<Body>)
    ensures data.Some? <==> reply.Some? && 200 <= reply.value.status < 300
    ensures data.Some? ==> data.value == reply.value.body
  {
    match reply
    case Some(r) => if 200 <= r.status < 300 then Some(r.body) else None
    case None => None
  }
}

=== FILE: jstext.dfy ===
/**
 * The few JavaScript string primitives the core relies on: `String.prototype.trim`,
 * the regular-expression class `\s`, `String.prototype.includes` and
 * `String.prototype.toLowerCase` (ASCII letters only, see README).
 */
module JsText {

  /** The characters JavaScript's `trim` removes and `\s` matches: ECMAScript's
      WhiteSpace and LineTerminator code points. */
  predicate IsWhitespace(c: char) {
    || c == '\t' || c == '\n' || c == '\U{B}' || c == '\U{C}' || c == '\r'
    || c == ' ' || c == '\U{A0}' || c == '\U{1680}'
    || ('\U{2000}' <= c <= '\U{200A}')
    || c == '\U{2028}' || c == '\U{2029}' || c == '\U{202F}' || c == '\U{205F}'
    || c == '\U{3000}' || c == '\U{FEFF}'
  }

  predicate AllWhitespace(s: string) {
    forall i :: 0 <= i < |s| ==> IsWhitespace(s[i])
  }

  /** Neither end of `s` is whitespace. */
  predicate IsTrimmed(s: string) {
    |s| == 0 || (!IsWhitespace(s[0]) && !IsWhitespace(s[|s| - 1]))
  }

  /** The index of the first character at or after `k` that is not
      whitespace, or `|s|` when there is none. */
  function SkipWhitespace(s: string, k: nat): (n: nat)
    requires k <= |s|
    ensures k <= n <= |s|
    ensures forall i :: k <= i < n ==> IsWhitespace(s[i])
    ensures n == |s| || !IsWhitespace(s[n])
    decreases |s| - k
  {
    if k < |s| && IsWhitespace(s[k]) then SkipWhitespace(s, k + 1) else k
  }

  /** The index just after the last character before `k` that is not
      whitespace, going no lower than `lo`. */
  function BackOverWhitespace(s: string, lo: nat, k: nat): (n: nat)
    requires lo <= k <= |s|
    ensures lo <= n <= k
    ensures forall i :: n <= i < k ==> IsWhitespace(s[i])
    ensures n == lo || !IsWhitespace(s[n - 1])
    decreases k
  {
    if k > lo && IsWhitespace(s[k - 1]) then BackOverWhitespace(s, lo, k - 1) else k
  }

  /** The first non-whitespace position is determined by the two facts that
      define it. */
  lemma SkipWhitespaceIs(s: string, k: nat, n: nat)
    requires k <= n <= |s|
    requires forall i :: k <= i < n ==> IsWhitespace(s[i])
    requires n == |s| || !IsWhitespace(s[n])
    ensures SkipWhitespace(s, k) == n
  {
  }

  /** The last non-whitespace position is determined likewise. */
  lemma BackOverWhitespaceIs(s: string, lo: nat, k: nat, n: nat)
    requires lo <= n <= k <= |s|
    requires forall i :: n <= i < k ==> IsWhitespace(s[i])
    requires n == lo || !IsWhitespace(s[n - 1])
    ensures BackOverWhitespace(s, lo, k) == n
  {
  }

  /** Drops the leading whitespace of `s`. */
  function TrimStart(s: string): (r: string)
    ensures |r| <= |s| && r == s[|s| - |r|..]
    ensures |r| == 0 || !IsWhitespace(r[0])
    ensures forall i :: 0 <= i < |s| - |r| ==> IsWhitespace(s[i])
  {
    s[SkipWhitespace(s, 0)..]
  }

  /** `r` is the slice of `s` starting at `a`, and everything around it is whitespace. */
  predicate WhitespaceAround(s: string, r: string, a: int) {
    && 0 <= a <= |s| - |r|
    && r == s[a..a + |r|]
    && (forall i :: 0 <= i < a ==> IsWhitespace(s[i]))
    && (forall i :: a + |r| <= i < |s| ==> IsWhitespace(s[i]))
  }

  /** JavaScript's `s.trim()`: the longest slice of `s` with no whitespace at
      either end, everything cut away being whitespace. */
  function Trim(s: string): (r: string)
    ensures IsTrimmed(r)
    ensures WhitespaceAround(s, r, SkipWhitespace(s, 0))
  {
    var a := SkipWhitespace(s, 0);
    s[a..BackOverWhitespace(s, a, |s|)]
  }

  /** A non-empty slice with no whitespace at its ends and only whitespace
      around it is the trim. */
  lemma TrimIs(s: string, a: nat, b: nat)
    requires a < b <= |s|
    requires forall i :: 0 <= i < a ==> IsWhitespace(s[i])
    requires forall i :: b <= i < |s| ==> IsWhitespace(s[i])
    requires !IsWhitespace(s[a]) && !IsWhitespace(s[b - 1])
    ensures Trim(s) == s[a..b]
  {
    SkipWhitespaceIs(s, 0, a);
    BackOverWhitespaceIs(s, a, |s|, b);
  }

  /** A trimmed string is its own trim. */
  lemma TrimOfTrimmed(s: string)
    requires IsTrimmed(s)
    ensures Trim(s) == s
  {
    SkipWhitespaceIs(s, 0, 0);
  }

  /** Leading whitespace of a concatenation: either `a` is used up, or the
      trimming stops inside `a`. */
  lemma TrimStartConcat(a: string, b: string)
    ensures TrimStart(a + b) == if AllWhitespace(a) then TrimStart(b) else TrimStart(a) + b
  {
    var ab := a + b;
    if AllWhitespace(a) {
      var m := SkipWhitespace(b, 0);
      forall i | 0 <= i < |a| + m
        ensures IsWhitespace(ab[i])
      {
        if i >= |a| {
          assert ab[i] == b[i - |a|];
        }
      }
      assert |a| + m == |ab| || ab[|a| + m] == b[m];
      SkipWhitespaceIs(ab, 0, |a| + m);
      assert ab[|a| + m..] == b[m..];
    } else {
      var m := SkipWhitespace(a, 0);
      assert m < |a|;
      assert ab[m] == a[m];
      SkipWhitespaceIs(ab, 0, m);
      assert ab[m..] == a[m..] + b;
    }
  }

  /** `c` with an ASCII capital replaced by its small letter. */
  function LowerChar(c: char): (d: char)
    ensures 'A' <= c <= 'Z' ==> 'a' <= d <= 'z' && d as int - c as int == 32
    ensures !('A' <= c <= 'Z') ==> d == c
  {
    if 'A' <= c <= 'Z' then (c as int + 32) as char else c
  }

  /** `s.toLowerCase()` restricted to ASCII letters. */
  function Lower(s: string): (r: string)
    ensures |r| == |s|
    ensures forall i :: 0 <= i < |s| ==> r[i] == LowerChar(s[i])
  {
    seq(|s|, i requires 0 <= i < |s| => LowerChar(s[i]))
  }

  lemma LowerIdempotent(s: string)
    ensures Lower(Lower(s)) == Lower(s)
  {
  }

  predicate StartsWith(s: string, prefix: string) {
    |prefix| <= |s| && s[..|prefix|] == prefix
  }

  /** `haystack.includes(needle)`, decided by scanning left to right. */
  predicate Contains(haystack: string, needle: string)
    decreases |haystack|
  {
    StartsWith(haystack, needle) || (|haystack| > 0 && Contains(haystack[1..], needle))
  }

  /** `needle` occurs in `haystack` at position `i`. */
  predicate OccursAt(haystack: string, needle: string, i: int) {
    0 <= i <= |haystack| - |needle| && haystack[i..i + |needle|] == needle
  }

  /** The scan finds `needle` exactly when it occurs at some position. */
  lemma {:induction false} ContainsIff(haystack: string, needle: string)
    ensures Contains(haystack, needle) <==> exists i :: OccursAt(haystack, needle, i)
    decreases |haystack|
  {
    var n := |needle|;
    if Contains(haystack, needle) {
      if StartsWith(haystack, needle) {
        assert OccursAt(haystack, needle, 0);
      } else {
        ContainsIff(haystack[1..], needle);
        var i :| OccursAt(haystack[1..], needle, i);
        assert haystack[1..][i..i + n] == haystack[i + 1..i + 1 + n];
        assert OccursAt(haystack, needle, i + 1);
      }
    }
    if exists i :: OccursAt(haystack, needle, i) {
      var i :| OccursAt(haystack, needle, i);
      if i == 0 {
        assert StartsWith(haystack, needle);
      } else {
        assert haystack[1..][i - 1..i - 1 + n] == haystack[i..i + n];
        assert OccursAt(haystack[1..], needle, i - 1);
        ContainsIff(haystack[1..], needle);
      }
    }
  }

  /** A needle found in a slice is found in the whole string. */
  lemma ContainsSlice(s: string, needle: string, a: int, b: int)
    requires 0 <= a <= b <= |s|
    ensures Contains(s[a..b], needle) ==> Contains(s, needle)
  {
    if Contains(s[a..b], needle) {
      ContainsIff(s[a..b], needle);
      var i :| OccursAt(s[a..b], needle, i);
      var n := |needle|;
      forall k | 0 <= k < n
        ensures s[a + i..a + i + n][k] == needle[k]
      {
        var t := s[a..b];
        assert t[i..i + n][k] == t[i + k];
      }
      assert OccursAt(s, needle, a + i);
      ContainsIff(s, needle);
    }
  }

  /** JavaScript truthiness of a string: only the empty string is falsy. */
  predicate Truthy(s: string) {
    s != ""
  }

  /** `a || b` on two strings. */
  function Or(a: string, b: string): (r: string)
    ensures Truthy(a) ==> r == a
    ensures !Truthy(a) ==> r == b
  {
    if Truthy(a) then a else b
  }
}

=== FILE: orchestrator.dfy ===
/**
 * The voice loop of `Home.tsx` as a state machine. The browser's speech
 * recogniser and synthesiser, the timers and the classifier call are the
 * environment: what they do arrives as an `Event`, and what the page asks of
 * them leaves as an `Effect`. `Step` is the page's reaction to one event.
 */
module Orchestrator {
  import opened Wrappers
  import opened JsText
  import opened Intents
  import opened Commands
  import Controller

  /** The callbacks the page hands to `setTimeout`. */
  datatype Timer =
    | StartDelay          // the first start, 1000 ms after mounting
    | RestartRecognition  // after the recogniser ended or failed, 1000 ms
    | ResumeAfterSpeech   // `startRecognition` 800 ms after a reply was spoken
    | ClearAssistantText  // blank `aiText` 1000 ms after a reply was spoken
    | ClearUserText       // blank `userText` 2000 ms after a reply arrived

  /** The page's state: its refs, the two texts it shows, and the work still
      owed to it by the environment. */
  datatype State = State(
    assistantName: string,  // the wake word, `userData.assistantName`
    mounted: bool,          // isMountedRef
    hasRecognizer: bool,    // recognitionRef is set: the browser has speech recognition
    speaking: bool,         // isSpeakingRef
    recognizing: bool,      // isRecognizingRef
    userText: string,
    aiText: string,
    timers: seq<Timer>,     // scheduled callbacks that have not fired
    utterances: nat,        // spoken replies whose end has not been reported
    greetingPending: bool,  // the greeting's end has not been reported
    awaiting: nat           // classifier calls not yet resolved
  )

  /** What the environment reports. */
  datatype Event =
    | RecognitionStarted                            // recognition.onstart
    | RecognitionEnded                              // recognition.onend
    | RecognitionError(error: string)               // recognition.onerror
    | RecognitionResult(transcript: Option<string>) // recognition.onresult; `None`: no result to read
    | UtteranceEnded                                // a spoken reply's onend
    | GreetingEnded                                 // the greeting's onend
    | TimerFired(index: nat)                        // the pending timer at `index` runs
    | ReplyArrived(data: Option<Body>)              // the oldest classifier call resolves
    | Unmount                                       // the effect's cleanup

  /** What the page asks of the browser. */
  datatype Effect =
    | StartRecognizer     // recognition.start(); an InvalidStateError is swallowed
    | StopRecognizer      // recognition.stop()
    | CancelSpeech        // speechSynthesis.cancel()
    | Speak(text: string) // speechSynthesis.speak
    | Classify(command: string) // getGeminiResponse(command)
    | Open(url: Url)      // window.open(url, '_blank')

  datatype Outcome = Outcome(state: State, effects: seq<Effect>)

  const Apology: string := "Sorry, I couldn't process that request."

  function Greeting(userName: string): string {
    "Hello " + userName + ", what can I help you with?"
  }

  /** The page after the effect ran: recogniser created, first start
      scheduled, greeting spoken when the user has a name. Without speech
      recognition the effect returns at once and sets nothing up. */
  function Mount(assistantName: string, userName: string, supported: bool): (o: Outcome)
    ensures o.state.mounted && !o.state.speaking && !o.state.recognizing
    ensures o.state.timers == (if supported then [StartDelay] else [])
    ensures Speak(Greeting(userName)) in o.effects <==> supported && userName != ""
    ensures o.effects == (if supported && userName != "" then [Speak(Greeting(userName))] else [])
    ensures o.state.assistantName == assistantName && o.state.hasRecognizer == supported
    ensures o.state.userText == "" && o.state.aiText == ""
    ensures o.state.awaiting == 0 && o.state.utterances == 0
    ensures o.state.greetingPending <==> supported && userName != ""
    ensures Valid(o.state)
  {
    if !supported then
      Outcome(State(assistantName, true, false, false, false, "", "", [], 0, false, 0), [])
    else
      var greet := Truthy(userName);
      Outcome(State(assistantName, true, true, false, false, "", "", [StartDelay], 0, greet, 0),
              if greet then [Speak(Greeting(userName))] else [])
  }

  /** What the page keeps true between events. Without a recogniser nothing
      was set up; after the cleanup the first-start timer is gone; while
      mounted, `isSpeakingRef` is only set while some spoken reply has yet to
      report its end. */
  predicate Valid(s: State) {
    && (!s.hasRecognizer ==>
          s.mounted && s.timers == [] && s.awaiting == 0 && s.utterances == 0
          && !s.greetingPending && !s.speaking && !s.recognizing)
    && (!s.mounted ==> StartDelay !in s.timers)
    && (s.mounted && s.speaking ==> s.utterances > 0)
  }

  /** `startRecognition`: asks for a start only when mounted, with a
      recogniser, not speaking and not already recognising, and changes no
      state either way. */
  function StartRecognition(s: State): (o: Outcome)
    ensures o.state == s
    ensures |o.effects| <= 1 && (forall k :: 0 <= k < |o.effects| ==> o.effects[k] == StartRecognizer)
    ensures StartRecognizer in o.effects
        <==> s.mounted && s.hasRecognizer && !s.speaking && !s.recognizing
  {
    if !s.mounted || !s.hasRecognizer then Outcome(s, [])
    else if !s.speaking && !s.recognizing then Outcome(s, [StartRecognizer])
    else Outcome(s, [])
  }

  /** `speak`: nothing for empty text or after the cleanup; otherwise
      `isSpeakingRef` is set and the text is spoken after cancelling any
      speech in progress. */
  function SpeakText(s: State, text: string): (o: Outcome)
    ensures !s.mounted || text == "" ==> o == Outcome(s, [])
    ensures s.mounted && text != "" ==>
      && o.state == s.(speaking := true, utterances := s.utterances + 1)
      && o.effects == [CancelSpeech, Speak(text)]
  {
    if !s.mounted || !Truthy(text) then Outcome(s, [])
    else Outcome(s.(speaking := true, utterances := s.utterances + 1), [CancelSpeech, Speak(text)])
  }

  function OpenAll(urls: seq<Url>): (effects: seq<Effect>)
    ensures |effects| == |urls|
    ensures forall k :: 0 <= k < |urls| ==> effects[k] == Open(urls[k])
  {
    if |urls| == 0 then [] else [Open(urls[0])] + OpenAll(urls[1..])
  }

  /** `handleCommand`: speak the response, then open the page its type
      leads to. */
  function HandleCommand(s: State, data: Body): (o: Outcome)
    ensures o.state == SpeakText(s, data.response).state
    ensures o.effects == SpeakText(s, data.response).effects + OpenAll(OpenedUrls(data.kind, data.userInput))
  {
    var spoken := SpeakText(s, data.response);
    Outcome(spoken.state, spoken.effects + OpenAll(OpenedUrls(data.kind, data.userInput)))
  }

  /** The wake-word test: the assistant has a name, and the lower-cased
      transcript contains the lower-cased name. */
  predicate WakeMatch(assistantName: string, transcript: string) {
    Truthy(assistantName) && Contains(Lower(transcript), Lower(assistantName))
  }

  function OnStarted(s: State): Outcome {
    Outcome(s.(recognizing := true), [])
  }

  /** `onend`: the recogniser is idle; a restart is scheduled only while
      mounted and not speaking. */
  function OnEnded(s: State): (o: Outcome)
    ensures !o.state.recognizing && o.effects == []
    ensures o.state == s.(recognizing := false, timers := o.state.timers)
    ensures o.state.timers == s.timers + [RestartRecognition] <==> s.mounted && !s.speaking
    ensures !(s.mounted && !s.speaking) ==> o.state.timers == s.timers
  {
    var idle := s.(recognizing := false);
    if s.mounted && !s.speaking then Outcome(idle.(timers := s.timers + [RestartRecognition]), [])
    else Outcome(idle, [])
  }

  /** `onerror`: like `onend`, except that an "aborted" error never
      schedules a restart. */
  function OnError(s: State, error: string): (o: Outcome)
    ensures !o.state.recognizing && o.effects == []
    ensures o.state == s.(recognizing := false, timers := o.state.timers)
    ensures o.state.timers == s.timers + [RestartRecognition]
        <==> s.mounted && error != "aborted" && !s.speaking
    ensures !(s.mounted && error != "aborted" && !s.speaking) ==> o.state.timers == s.timers
  {
    var idle := s.(recognizing := false);
    if s.mounted && error != "aborted" && !s.speaking
    then Outcome(idle.(timers := s.timers + [RestartRecognition]), [])
    else Outcome(idle, [])
  }

  /** `onresult`. A transcript naming the assistant stops the recogniser and
      goes to the classifier, in that order, and is shown verbatim (trimmed);
      any other transcript changes nothing. A result that cannot be read
      shows the apology, which is never spoken. */
  function OnResult(s: State, transcript: Option<string>): Outcome {
    match transcript
    case None =>
      if s.mounted then Outcome(s.(userText := "", aiText := Apology), []) else Outcome(s, [])
    case Some(raw) =>
      var t := Trim(raw);
      if !WakeMatch(s.assistantName, t) then Outcome(s, [])
      else
        var shown := if s.mounted then s.(aiText := "", userText := t) else s;
        Outcome(shown.(recognizing := false, awaiting := s.awaiting + 1), [StopRecognizer, Classify(t)])
  }

  /** The continuation after `await getGeminiResponse`: a reply is shown,
      spoken and acted on only when there is one and the page is still
      mounted. */
  function OnReply(s: State, data: Option<Body>): Outcome {
    if s.awaiting == 0 then Outcome(s, [])
    else
      var resolved := s.(awaiting := s.awaiting - 1);
      if data.Some? && s.mounted then
        var handled := HandleCommand(resolved.(aiText := data.value.response), data.value);
        Outcome(handled.state.(timers := handled.state.timers + [ClearUserText]), handled.effects)
      else Outcome(resolved, [])
  }

  /** A spoken reply's `onend`: after the cleanup nothing; otherwise
      `isSpeakingRef` is cleared and the text clear and the restart are
      scheduled. */
  function OnUtteranceEnded(s: State): Outcome {
    if s.utterances == 0 then Outcome(s, [])
    else
      var ended := s.(utterances := s.utterances - 1);
      if !s.mounted then Outcome(ended, [])
      else Outcome(ended.(speaking := false, timers := s.timers + [ClearAssistantText, ResumeAfterSpeech]), [])
  }

  /** The greeting's `onend` only silences speech left over after the
      cleanup; it never touched `isSpeakingRef`. */
  function OnGreetingEnded(s: State): Outcome {
    if !s.greetingPending then Outcome(s, [])
    else Outcome(s.(greetingPending := false), if s.mounted then [] else [CancelSpeech])
  }

  /** `timers` without the entry at `i`. */
  function RemoveAt(timers: seq<Timer>, i: nat): (rest: seq<Timer>)
    requires i < |timers|
    ensures |rest| == |timers| - 1
    ensures forall t :: t in rest ==> t in timers
    ensures multiset(rest) == multiset(timers) - multiset{timers[i]}
  {
    assert timers == timers[..i] + [timers[i]] + timers[i + 1..];
    timers[..i] + timers[i + 1..]
  }

  /** A timer callback. The first start re-checks mounted, speaking and
      recognising; the restart after an end or error re-checks only mounted;
      the restart after speech calls `startRecognition`. */
  function OnTimer(s: State, i: nat): Outcome {
    if i >= |s.timers| then Outcome(s, [])
    else
      var fired := s.(timers := RemoveAt(s.timers, i));
      match s.timers[i]
      case StartDelay =>
        if s.mounted && !s.speaking && !s.recognizing then Outcome(fired, [StartRecognizer])
        else Outcome(fired, [])
      case RestartRecognition =>
        if s.mounted then Outcome(fired, [StartRecognizer]) else Outcome(fired, [])
      case ResumeAfterSpeech =>
        if s.mounted then StartRecognition(fired) else Outcome(fired, [])
      case ClearAssistantText =>
        if s.mounted then Outcome(fired.(aiText := ""), []) else Outcome(fired, [])
      case ClearUserText =>
        if s.mounted then Outcome(fired.(userText := ""), []) else Outcome(fired, [])
  }

  /** All StartDelay entries gone. */
  function WithoutStartDelay(timers: seq<Timer>): (rest: seq<Timer>)
    ensures StartDelay !in rest
    ensures forall t :: t in timers && t != StartDelay ==> t in rest
    ensures forall t :: t in rest ==> t in timers
  {
    if |timers| == 0 then []
    else (if timers[0] == StartDelay then [] else [timers[0]]) + WithoutStartDelay(timers[1..])
  }

  /** The cleanup drops every first-start timer and keeps every other pending
      timer as often as it was pending. */
  lemma {:induction false} WithoutStartDelayCounts(timers: seq<Timer>)
    ensures multiset(WithoutStartDelay(timers)) == multiset(timers)[StartDelay := 0]
    decreases |timers|
  {
    if |timers| > 0 {
      WithoutStartDelayCounts(timers[1..]);
      assert timers == [timers[0]] + timers[1..];
    }
  }

  /** The effect's cleanup: unmounted, the first-start timer cleared (and no
      other), the recogniser stopped and speech cancelled. Without a
      recogniser the effect registered no cleanup. */
  function OnUnmount(s: State): Outcome {
    if !s.hasRecognizer || !s.mounted then Outcome(s, [])
    else
      Outcome(s.(mounted := false, recognizing := false, timers := WithoutStartDelay(s.timers)),
              [StopRecognizer, CancelSpeech])
  }

  /** The page's reaction to one event. Recogniser events reach the page
      only if it created a recogniser. */
  function Step(s: State, e: Event): Outcome {
    match e
    case RecognitionStarted => if s.hasRecognizer then OnStarted(s) else Outcome(s, [])
    case RecognitionEnded => if s.hasRecognizer then OnEnded(s) else Outcome(s, [])
    case RecognitionError(error) => if s.hasRecognizer then OnError(s, error) else Outcome(s, [])
    case RecognitionResult(t) => if s.hasRecognizer then OnResult(s, t) else Outcome(s, [])
    case UtteranceEnded => OnUtteranceEnded(s)
    case GreetingEnded => OnGreetingEnded(s)
    case TimerFired(i) => OnTimer(s, i)
    case ReplyArrived(data) => OnReply(s, data)
    case Unmount => OnUnmount(s)
  }

  /** The page's reaction to a sequence of events, with all effects in order. */
  function Run(s: State, events: seq<Event>): Outcome
    decreases |events|
  {
    if |events| == 0 then Outcome(s, [])
    else
      var first := Step(s, events[0]);
      var rest := Run(first.state, events[1..]);
      Outcome(rest.state, first.effects + rest.effects)
  }

  // ---- properties of one step ----

  /** Recogniser callbacks keep the page's invariant. */
  lemma RecognizerEventKeepsValid(s: State, e: Event)
    requires Valid(s) && (e.RecognitionStarted? || e.RecognitionEnded? || e.RecognitionError? || e.RecognitionResult?)
    ensures Valid(Step(s, e).state)
  {
  }

  /** Timer callbacks keep the page's invariant. */
  lemma TimerKeepsValid(s: State, i: nat)
    requires Valid(s)
    ensures Valid(Step(s, TimerFired(i)).state)
  {
    if i < |s.timers| {
      var rest := RemoveAt(s.timers, i);
      assert StartDelay in rest ==> StartDelay in s.timers;
    }
  }

  /** Every step keeps the page's invariant. */
  lemma StepKeepsValid(s: State, e: Event)
    requires Valid(s)
    ensures Valid(Step(s, e).state)
  {
    match e
    case TimerFired(i) => TimerKeepsValid(s, i);
    case RecognitionStarted => RecognizerEventKeepsValid(s, e);
    case RecognitionEnded => RecognizerEventKeepsValid(s, e);
    case RecognitionError(_) => RecognizerEventKeepsValid(s, e);
    case RecognitionResult(_) => RecognizerEventKeepsValid(s, e);
    case _ =>
  }

  /** The mounted flag never comes back once the cleanup has run. */
  lemma UnmountIsFinal(s: State, e: Event)
    requires !s.mounted
    ensures !Step(s, e).state.mounted
  {
  }

  /** A start is only ever requested while mounted. */
  lemma StartOnlyWhileMounted(s: State, e: Event)
    ensures StartRecognizer in Step(s, e).effects ==> s.mounted
  {
  }

  /** The one way a start is requested while speaking: a restart timer
      scheduled by `onend`/`onerror`, which re-checks only the mounted flag. */
  lemma StartWhileSpeakingOnlyFromRestart(s: State, e: Event)
    requires s.speaking
    ensures StartRecognizer in Step(s, e).effects
        ==> e.TimerFired? && e.index < |s.timers| && s.timers[e.index] == RestartRecognition
  {
  }

  /** Speech is only ever started while mounted. */
  lemma SpeechOnlyWhileMounted(s: State, e: Event)
    ensures forall k :: 0 <= k < |Step(s, e).effects| && Step(s, e).effects[k].Speak? ==> s.mounted
  {
    if e.ReplyArrived? && s.awaiting > 0 && e.data.Some? && s.mounted {
    }
  }

  /** A transcript without the wake word changes nothing and calls nobody. */
  lemma NoWakeWordNoTurn(s: State, raw: string)
    requires s.hasRecognizer && !WakeMatch(s.assistantName, Trim(raw))
    ensures Step(s, RecognitionResult(Some(raw))) == Outcome(s, [])
  {
  }

  /** An empty assistant name never matches. */
  lemma EmptyNameNeverWakes(transcript: string)
    ensures !WakeMatch("", transcript)
  {
  }

  /** A transcript with the wake word stops recognition before exactly one
      classifier call with the trimmed transcript, and shows that transcript. */
  lemma WakeWordStartsTurn(s: State, raw: string)
    requires s.hasRecognizer && WakeMatch(s.assistantName, Trim(raw))
    ensures var o := Step(s, RecognitionResult(Some(raw)));
      && o.effects == [StopRecognizer, Classify(Trim(raw))]
      && !o.state.recognizing
      && o.state.awaiting == s.awaiting + 1
      && (s.mounted ==> o.state.userText == Trim(raw) && o.state.aiText == "")
      && o.state.(userText := s.userText, aiText := s.aiText, recognizing := s.recognizing,
                  awaiting := s.awaiting) == s
  {
  }

  /** The wake-word test is case-insensitive on ASCII letters. */
  lemma WakeMatchIgnoresCase(name: string, transcript: string)
    ensures WakeMatch(name, transcript) == WakeMatch(Lower(name), Lower(transcript))
  {
    LowerIdempotent(name);
    LowerIdempotent(transcript);
  }

  /** A result that cannot be read shows the apology and says nothing. */
  lemma UnreadableResultIsSilent(s: State)
    requires s.hasRecognizer && s.mounted
    ensures Step(s, RecognitionResult(None)) == Outcome(s.(userText := "", aiText := Apology), [])
  {
  }

  /** No reply, or a reply after the cleanup, resolves the call and does
      nothing else: no text, no speech, no page opened. */
  lemma NoDataNoReaction(s: State, data: Option<Body>)
    requires s.awaiting > 0 && (data.None? || !s.mounted)
    ensures Step(s, ReplyArrived(data)) == Outcome(s.(awaiting := s.awaiting - 1), [])
  {
  }

  /** A reply reaching the mounted page is shown, spoken when it has text,
      and acted on by its type alone. */
  lemma ReplyIsShownSpokenAndDispatched(s: State, data: Body)
    requires s.awaiting > 0 && s.mounted
    ensures var o := Step(s, ReplyArrived(Some(data)));
      && o.state.aiText == data.response
      && o.state.timers == s.timers + [ClearUserText]
      && o.state.awaiting == s.awaiting - 1
      && o.state.(aiText := s.aiText, speaking := s.speaking, utterances := s.utterances,
                  timers := s.timers, awaiting := s.awaiting) == s
      && (data.response != "" ==>
            && o.state.speaking && o.state.utterances == s.utterances + 1
            && o.effects == [CancelSpeech, Speak(data.response)] + OpenAll(OpenedUrls(data.kind, data.userInput)))
      && (data.response == "" ==>
            && o.state.speaking == s.speaking && o.state.utterances == s.utterances
            && o.effects == OpenAll(OpenedUrls(data.kind, data.userInput)))
  {
  }

  /** After a spoken reply ends, while mounted: not speaking, and the text
      clear and `startRecognition` are both scheduled. */
  lemma SpeechEndSchedulesResume(s: State)
    requires s.mounted && s.utterances > 0
    ensures var o := Step(s, UtteranceEnded);
      && o.state == s.(speaking := false, utterances := s.utterances - 1, timers := o.state.timers)
      && o.state.timers == s.timers + [ClearAssistantText, ResumeAfterSpeech]
      && o.effects == []
  {
  }

  /** After the cleanup no event schedules a timer: each can only let one
      that was already pending fire. */
  lemma TornDownNoNewTimers(s: State, e: Event)
    requires !s.mounted
    ensures multiset(Step(s, e).state.timers) <= multiset(s.timers)
  {
    if e.TimerFired? {
      TimerOnlyRemovesItself(s, e.index);
    } else {
      TornDownKeepsTimers(s, e);
    }
  }

  /** After the cleanup a firing timer only leaves the list. */
  lemma TimerOnlyRemovesItself(s: State, i: nat)
    requires !s.mounted
    ensures OnTimer(s, i).state.timers == if i < |s.timers| then RemoveAt(s.timers, i) else s.timers
  {
  }

  /** After the cleanup, no event other than a timer's touches the timers. */
  lemma TornDownKeepsTimers(s: State, e: Event)
    requires !s.mounted && !e.TimerFired?
    ensures Step(s, e).state.timers == s.timers
  {
  }

  /** After the cleanup, timers and classifier replies change nothing but
      their own bookkeeping, which only shrinks, and ask nothing of the
      browser. */
  lemma TornDownCallbacksAreInert(s: State, e: Event)
    requires !s.mounted && (e.TimerFired? || e.ReplyArrived? || e.UtteranceEnded?)
    ensures var o := Step(s, e);
      && o.effects == []
      && o.state.(timers := s.timers, awaiting := s.awaiting, utterances := s.utterances) == s
      && multiset(o.state.timers) <= multiset(s.timers)
      && o.state.awaiting <= s.awaiting && o.state.utterances <= s.utterances
  {
    TornDownNoNewTimers(s, e);
  }

  /** The cleanup: unmounted, the first-start timer gone and every other
      timer left to fire, the recogniser stopped and speech cancelled. */
  lemma CleanupEffects(s: State)
    requires s.hasRecognizer && s.mounted
    ensures var o := Step(s, Unmount);
      && !o.state.mounted && !o.state.recognizing
      && StartDelay !in o.state.timers
      && (forall t :: t in s.timers && t != StartDelay ==> t in o.state.timers)
      && multiset(o.state.timers) == multiset(s.timers)[StartDelay := 0]
      && o.state == s.(mounted := false, recognizing := false, timers := o.state.timers)
      && o.effects == [StopRecognizer, CancelSpeech]
  {
    WithoutStartDelayCounts(s.timers);
  }

  // ---- properties of runs ----

  /** Effects the page may still cause after its cleanup: stopping the
      recogniser, silencing speech, and a classifier call for a result the
      recogniser still delivers. */
  predicate QuietEffect(e: Effect) {
    e.StopRecognizer? || e.CancelSpeech? || e.Classify?
  }

  /** One step after the cleanup: still torn down, texts and speaking flag
      untouched, no timer newly scheduled, and only quiet effects. */
  predicate QuietStep(s: State, o: Outcome) {
    && !o.state.mounted
    && o.state.userText == s.userText && o.state.aiText == s.aiText
    && o.state.speaking == s.speaking
    && multiset(o.state.timers) <= multiset(s.timers)
    && (forall k :: 0 <= k < |o.effects| ==> QuietEffect(o.effects[k]))
  }

  lemma TornDownRecognizerIsQuiet(s: State, e: Event)
    requires !s.mounted && (e.RecognitionStarted? || e.RecognitionEnded? || e.RecognitionError? || e.RecognitionResult?)
    ensures QuietStep(s, Step(s, e))
  {
  }

  lemma TornDownStepIsQuiet(s: State, e: Event)
    requires !s.mounted
    ensures QuietStep(s, Step(s, e))
  {
    TornDownNoNewTimers(s, e);
    if e.RecognitionStarted? || e.RecognitionEnded? || e.RecognitionError? || e.RecognitionResult? {
      TornDownRecognizerIsQuiet(s, e);
    }
  }

  /** Once torn down, the page stays torn down whatever happens: its texts
      and speaking flag are frozen, no timer is scheduled anew, and it never
      again starts recognition, speaks or opens a page. */
  lemma {:induction false} TornDownStaysQuiet(s: State, events: seq<Event>)
    requires !s.mounted
    ensures QuietStep(s, Run(s, events))
    decreases |events|
  {
    if |events| > 0 {
      var first := Step(s, events[0]);
      TornDownStepIsQuiet(s, events[0]);
      TornDownStaysQuiet(first.state, events[1..]);
    }
  }

  /** The invariant holds along every run. */
  lemma {:induction false} RunKeepsValid(s: State, events: seq<Event>)
    requires Valid(s)
    ensures Valid(Run(s, events).state)
    decreases |events|
  {
    if |events| > 0 {
      StepKeepsValid(s, events[0]);
      RunKeepsValid(Step(s, events[0]).state, events[1..]);
    }
  }

  /** Running two event sequences one after the other is running their
      concatenation: effects are never reordered or lost between events. */
  lemma {:induction false} RunSplit(s: State, a: seq<Event>, b: seq<Event>)
    ensures var first := Run(s, a);
      var second := Run(first.state, b);
      Run(s, a + b) == Outcome(second.state, first.effects + second.effects)
    decreases |a|
  {
    if |a| == 0 {
      assert a + b == b;
    } else {
      var step := Step(s, a[0]);
      assert (a + b)[0] == a[0];
      assert (a + b)[1..] == a[1..] + b;
      RunSplit(step.state, a[1..], b);
      var rest := Run(step.state, a[1..]);
      var second := Run(rest.state, b);
      assert step.effects + (rest.effects + second.effects) == (step.effects + rest.effects) + second.effects;
    }
  }

  // ---- reachable behaviours ----

  /** The greeting is not tracked by `isSpeakingRef`, so the first start
      fires while the greeting may still be playing: the page listens to
      its own greeting. */
  lemma GreetingOverlapsListening(assistantName: string, userName: string)
    requires userName != ""
    ensures var m := Mount(assistantName, userName, true);
      var o := Step(m.state, TimerFired(0));
      && m.effects == [Speak(Greeting(userName))]
      && o.state.greetingPending
      && o.effects == [StartRecognizer]
  {
  }

  /** Two events in a row. */
  lemma RunTwo(s: State, e1: Event, e2: Event)
    ensures var o1 := Step(s, e1);
      var o2 := Step(o1.state, e2);
      Run(s, [e1, e2]) == Outcome(o2.state, o1.effects + o2.effects)
  {
    var o1 := Step(s, e1);
    var o2 := Step(o1.state, e2);
    assert [e1, e2][1..] == [e2];
    assert [e2][1..] == [];
    assert Run(o1.state, [e2]) == Outcome(o2.state, o2.effects + []);
    assert o2.effects + [] == o2.effects;
  }

  /** The opening of a turn: the first start, the recogniser starting,
      a wake-word result, and the recogniser's end after it was stopped. The
      end schedules a restart because the page is not speaking yet. */
  lemma WakeTurnOpens(name: string, raw: string)
    requires WakeMatch(name, Trim(raw))
    ensures var o := Run(Mount(name, "", true).state,
                         [TimerFired(0), RecognitionStarted, RecognitionResult(Some(raw)), RecognitionEnded]);
      && o.state.mounted && o.state.hasRecognizer && !o.state.speaking && !o.state.recognizing
      && o.state.timers == [RestartRecognition] && o.state.awaiting == 1
      && o.effects == [StartRecognizer, StopRecognizer, Classify(Trim(raw))]
  {
    var s0 := Mount(name, "", true).state;
    RunTwo(s0, TimerFired(0), RecognitionStarted);
    var s2 := Run(s0, [TimerFired(0), RecognitionStarted]).state;
    assert s2 == s0.(timers := [], recognizing := true);
    RunTwo(s2, RecognitionResult(Some(raw)), RecognitionEnded);
    RunSplit(s0, [TimerFired(0), RecognitionStarted], [RecognitionResult(Some(raw)), RecognitionEnded]);
    assert [TimerFired(0), RecognitionStarted] + [RecognitionResult(Some(raw)), RecognitionEnded]
        == [TimerFired(0), RecognitionStarted, RecognitionResult(Some(raw)), RecognitionEnded];
  }

  /** The close of such a turn: the reply is spoken, and the pending restart
      then starts the recogniser while the page speaks. */
  lemma ReplyThenRestartOverlap(s: State, data: Body)
    requires s.mounted && s.hasRecognizer && s.timers == [RestartRecognition] && s.awaiting > 0
    requires data.response != ""
    ensures var o := Run(s, [ReplyArrived(Some(data)), TimerFired(0), RecognitionStarted]);
      o.state.speaking && o.state.recognizing && o.state.mounted
  {
    var s1 := Step(s, ReplyArrived(Some(data))).state;
    ReplyIsShownSpokenAndDispatched(s, data);
    RestartFiresWhileSpeaking(s1);
    assert [ReplyArrived(Some(data))][1..] == [];
    assert Run(s, [ReplyArrived(Some(data))]).state == s1;
    RunSplit(s, [ReplyArrived(Some(data))], [TimerFired(0), RecognitionStarted]);
    assert [ReplyArrived(Some(data))] + [TimerFired(0), RecognitionStarted]
        == [ReplyArrived(Some(data)), TimerFired(0), RecognitionStarted];
  }

  /** A pending restart fires on a speaking page and the recogniser starts. */
  lemma RestartFiresWhileSpeaking(s: State)
    requires s.mounted && s.hasRecognizer && s.speaking
    requires |s.timers| > 0 && s.timers[0] == RestartRecognition
    ensures var o := Run(s, [TimerFired(0), RecognitionStarted]).state;
      o.speaking && o.recognizing && o.mounted
  {
    RunTwo(s, TimerFired(0), RecognitionStarted);
  }

  /** The restart that `onend` schedules re-checks only the mounted flag. If
      the recogniser ends while the classifier is still thinking, and the
      reply is spoken before the restart fires, the recogniser runs while
      the page is speaking. */
  lemma SpeakingWhileRecognizingIsReachable(name: string, raw: string, data: Body)
    requires WakeMatch(name, Trim(raw)) && data.response != ""
    ensures var o := Run(Mount(name, "", true).state,
                         [TimerFired(0), RecognitionStarted, RecognitionResult(Some(raw)), RecognitionEnded,
                          ReplyArrived(Some(data)), TimerFired(0), RecognitionStarted]);
      o.state.speaking && o.state.recognizing && o.state.mounted
  {
    var s0 := Mount(name, "", true).state;
    var head := [TimerFired(0), RecognitionStarted, RecognitionResult(Some(raw)), RecognitionEnded];
    var tail := [ReplyArrived(Some(data)), TimerFired(0), RecognitionStarted];
    WakeTurnOpens(name, raw);
    ReplyThenRestartOverlap(Run(s0, head).state, data);
    RunSplit(s0, head, tail);
    assert head + tail == [TimerFired(0), RecognitionStarted, RecognitionResult(Some(raw)), RecognitionEnded,
                           ReplyArrived(Some(data)), TimerFired(0), RecognitionStarted];
  }

  /** The cleanup stops the recogniser but does not detach `onresult`, so a
      late result naming the assistant still reaches the classifier. */
  lemma ClassifyAfterUnmount(s: State, raw: string)
    requires s.hasRecognizer && s.mounted && WakeMatch(s.assistantName, Trim(raw))
    ensures Run(s, [Unmount, RecognitionResult(Some(raw))]).effects
         == [StopRecognizer, CancelSpeech, StopRecognizer, Classify(Trim(raw))]
  {
    var u := Step(s, Unmount).state;
    assert Run(u, [RecognitionResult(Some(raw))]).effects == [StopRecognizer, Classify(Trim(raw))];
  }

  // ---- the page and the controller together ----

  /** A turn ends in speech exactly when `askToAssistant` answered 200: every
      failure reply is a non-2xx status, which reaches the page as no data,
      and every success has something to say. */
  lemma TurnSpeaksIffControllerSucceeded(s: State, hasUserId: bool, lookup: Controller.UserLookup,
                                         command: Option<string>, saveOk: bool,
                                         classified: Option<Classified>, clock: Controller.Clock)
    requires s.mounted && s.awaiting > 0
    ensures var r := Controller.Ask(hasUserId, lookup, command, saveOk, classified, clock).reply;
      var o := Step(s, ReplyArrived(Deliver(Some(r))));
      && (Speak(r.body.response) in o.effects <==> r.status == 200)
      && (r.status != 200 ==> o == Outcome(s.(awaiting := s.awaiting - 1), []))
  {
    Controller.BrowserSeesOnlySuccess(hasUserId, lookup, command, saveOk, classified, clock);
    var r := Controller.Ask(hasUserId, lookup, command, saveOk, classified, clock).reply;
    if r.status == 200 {
      ReplyIsShownSpokenAndDispatched(s, r.body);
      var o := Step(s, ReplyArrived(Deliver(Some(r))));
      assert o.effects[1] == Speak(r.body.response);
    }
  }
}

=== FILE: routing.dfy ===
/**
 * The route table of `App.tsx`: which page each path renders, or where it
 * redirects, given the signed-in user's data.
 */
module Routing {
  import opened Wrappers
  import opened JsText

  /** The five declared paths. */
  datatype Path = Root | SignUpPath | SignInPath | CustomizePath | Customize2Path

  datatype Page = Home | SignUp | SignIn | Customize | Customize2

  /** A route element: a page, or a `<Navigate>` to another path. */
  datatype Element = Render(page: Page) | Redirect(to: Path)

  /** The fields of `userData` the table reads. */
  datatype UserView = UserView(assistantImage: string, assistantName: string)

  /** The element `App` places at path `p`. */
  function RouteElement(user: Option<UserView>, p: Path): Element {
    match p
    case Root =>
      if user.Some? && Truthy(user.value.assistantImage) && Truthy(user.value.assistantName)
      then Render(Home) else Redirect(CustomizePath)
    case SignUpPath => if user.None? then Render(SignUp) else Redirect(Root)
    case SignInPath => if user.None? then Render(SignIn) else Redirect(Root)
    case CustomizePath => if user.Some? then Render(Customize) else Redirect(SignUpPath)
    case Customize2Path => if user.Some? then Render(Customize2) else Redirect(SignUpPath)
  }

  /** Home is shown exactly to a user with both an assistant image and an
      assistant name; everyone else is sent to the customisation page. */
  lemma HomeNeedsImageAndName(user: Option<UserView>)
    ensures RouteElement(user, Root) == Render(Home)
        <==> user.Some? && user.value.assistantImage != "" && user.value.assistantName != ""
    ensures RouteElement(user, Root) != Render(Home) ==> RouteElement(user, Root) == Redirect(CustomizePath)
  {
  }

  /** The sign-up and sign-in pages are only for visitors. */
  lemma AuthPagesOnlyWhenSignedOut(user: Option<UserView>)
    ensures RouteElement(user, SignUpPath).Render? <==> user.None?
    ensures RouteElement(user, SignInPath).Render? <==> user.None?
    ensures user.Some? ==> RouteElement(user, SignUpPath) == Redirect(Root) == RouteElement(user, SignInPath)
  {
  }

  /** The customisation pages are only for signed-in users. */
  lemma CustomizeOnlyWhenSignedIn(user: Option<UserView>)
    ensures RouteElement(user, CustomizePath).Render? <==> user.Some?
    ensures RouteElement(user, Customize2Path).Render? <==> user.Some?
    ensures user.None? ==> RouteElement(user, CustomizePath) == Redirect(SignUpPath) == RouteElement(user, Customize2Path)
  {
  }

  /** The paths visited from `p` while following redirects, at most `fuel`
      redirects deep; the last one is where following stopped. */
  function Visit(user: Option<UserView>, p: Path, fuel: nat): (trail: seq<Path>)
    ensures 1 <= |trail| <= fuel + 1 && trail[0] == p
    decreases fuel
  {
    match RouteElement(user, p)
    case Render(_) => [p]
    case Redirect(q) => if fuel == 0 then [p] else [p] + Visit(user, q, fuel - 1)
  }

  /** Following redirects from any path, whoever is signed in, ends on a
      rendered page after at most two redirects, never visiting a path twice. */
  lemma RedirectsSettle(user: Option<UserView>, p: Path)
    ensures var trail := Visit(user, p, 2);
      && |trail| <= 3
      && RouteElement(user, trail[|trail| - 1]).Render?
      && (forall i, j :: 0 <= i < j < |trail| ==> trail[i] != trail[j])
  {
  }

  /** The user record a fresh sign-up gets: the schema's defaults. */
  const FreshUser: UserView := UserView("", "My Assistant")

  /** A freshly registered user has no assistant image yet, so lands on the
      customisation page rather than on Home. */
  lemma FreshUserIsSentToCustomize()
    ensures RouteElement(Some(FreshUser), Root) == Redirect(CustomizePath)
    ensures Visit(Some(FreshUser), Root, 2) == [Root, CustomizePath]
  {
  }
}

=== FILE: wrappers.dfy ===
/** The optional value used wherever the source has `undefined` or a missing record. */
module Wrappers {

  /** `None` stands for JavaScript's `undefined`/`null`; `Some(v)` for a present value. */
  datatype Option<+T> = None | Some(value: T) {

    /** The wrapped value, or `default` when there is none. */
    function GetOr(default: T): T {
      match this
      case Some(v) => v
      case None => default
    }
  }
}
